=== FILE: README.md ===
# Autolevel compensation engine, modelled in Dafny

This project models the auto-levelling engine of the cncjs extension in `autolevel.js`.

When a probing run starts, the engine plans a grid of probe points over the bounding box of the
loaded G-code program, shrunk by a margin. It stores each reported probe point relative to the
work offset and keeps running statistics of the heights. Once every planned point has reported,
it rewrites the program. Each absolute move gets a height taken from the plane through the three
nearest usable probed points. The rewritten program is then loaded under the name
`#AL:<original name>`.

## Modules

| file | module | what it holds |
|---|---|---|
| `wrappers.dfy` | `Wrappers` | `Option` |
| `geometry.dfy` | `Geometry` | `Units.convert`, `sub3`, `crossProduct3`, the squared distances, `isColinear`, and `IsSqrt`, the property `Math.sqrt` is assumed to have |
| `text.dfy` | `GcodeText` | `stripComments`; the regular-expression tests on stripped lines, written out over characters with the ASCII case folding of the `i` flag; coordinate words and their removal; splitting and joining on line feeds |
| `surface.dfy` | `Surface` | the order the probed points are sorted in; the neighbour choice of `getThreeClosestPoints`; the plane fit and height formula of `compensateZCoord`; the running statistics of the store |
| `grid.dfy` | `Grid` | the probing program `start` builds: commands as records, the planner loops (`PlanGrid`), and the properties of the points it visits |
| `rewrite.dfy` | `Rewrite` | the per-line state machine of `applyCompensation` as a pure `Step`/`Run` specification, and `Realizes`, which says what output lines a run's plans allow |
| `autolevel.dfy` | `Session` | the `Autolevel` class: its fields, the event handlers, and the imperative members (`splitToSegments`, `getThreeClosestPoints`, `compensateZCoord`, the rewrite loop) proved against the specifications above |

### Modelling choices

- **Outside inputs.** `Math.sqrt` and `parseFloat` are constants given to the constructor. `sqrt` must satisfy `IsSqrt` (non-negative, squares back to its argument). `parseFloat` is an uninterpreted function from number text to `real`.
- **Outputs.** `sendGcode` and `loadGcode` append to ghost histories, `sent` and `loaded`.
  - Messages are records, not formatted text.
  - Output lines are `Text(line)` or `Moved(prefix, compensated point, original z)`.
  - The probing program is a sequence of `GridCmd` records.
- **Sort order.** The sort comparator never returns 0, so the order of equidistant points is not determined. A compensated height is therefore specified by `Surface.Compensates`: some permutation of the store, sorted by XY distance, produces it. The sort itself (`Surface.SortByDistance`) is an insertion sort that is proved to yield a sorted permutation.
- **Segment splitting.** `applyCompensation` calls `splitToSegments(p0, pt)` without a units argument. `Units.convert` then returns `undefined` and the step length is `NaN`, so the splitting loop never runs. Every absolute move after the first therefore yields exactly its two end points.
  - `Session.Autolevel.SplitToSegments` takes `Option<Unit>`. With `None` it returns `[p1, p2]`. With a unit it produces the split points.
  - The rewrite passes `None`.
- **Start parameters.** The `D`, `H`, `F` and `M` numbers of `#autolevel` arrive already parsed, as `StartOptions`.
- **Probe replies.** A probe reply arrives as the reported point; the text of `[PRB:…]` is not parsed.
- **Grid divisor.** It is `parseInt(span / delta)`, i.e. the floor of the quotient, as the code computes it. It is not rounded.
  - There is no check that the area left inside the margin is large enough.
  - `start` therefore requires (`Session.GridFits`) a positive step that fits at least once in each side. Outside that range the code plans no proper grid: it hangs, probes only the corner, or plans a point with NaN coordinates (see "## Left out").
- **Where the documentation and the code disagree, the model follows the code.**
  - The documentation describes a rounded grid divisor; the code takes the floor (`parseInt`).
  - The documentation describes `X`, `Y` and `P` options (a fixed scan area and a probe-only mode); the code has none.
  - The documentation describes a failure when the plane is vertical. The code has a `normal.z == 0` branch (autolevel.js:286-291), but it only logs and leaves the height offset at 0. It is unreachable: three chosen points always span a plane with `|normal.z| >= 1e-5` (`Surface.ChosenPlaneIsNotVertical`).
  - The documentation describes segments split into `ceil(length / step) + 1` points. `splitToSegments` does split that way when it is given units (`Session.SplitCount`, `Session.Autolevel.SplitToSegments`). Its only caller, autolevel.js:344, passes no units, so every move yields its two end points.

## Model

| member | source | states |
|---|---|---|
| Geometry.ConvertSameUnit | autolevel.js:10-13 | converting between equal units returns the value |
| Geometry.ConvertRoundTrip | autolevel.js:10-20 | converting to the other unit and back returns the value exactly, in both directions (factor 25.4) |
| Geometry.ConvertAdditive | autolevel.js:14-19 | conversion is linear, so a height offset converts on its own |
| Geometry.CrossProductOrthogonal | autolevel.js:192-198 | the cross product is orthogonal to both of its arguments |
| Geometry.NotColinearMeansCrossZ | autolevel.js:192-202 | `isColinear` is exactly the test that the z of u × v is below 1e-5 in magnitude, so a pair it rejects has a cross product with non-zero z |
| Geometry.ColinearBasics | autolevel.js:200-202 | `isColinear` does not depend on argument order, and accepts a vector with itself, with its opposite and with the zero vector |
| GcodeText.NumberRun | autolevel.js:331-338 | the longest prefix of number characters (`[.+-0-9]`): all of it matches and the next character does not |
| GcodeText.IndexOf | autolevel.js:303 | the first position of a character, or the length when absent |
| GcodeText.RemoveSpaces | autolevel.js:180-181 | the last replacement leaves no white space |
| GcodeText.RemoveGroupsLeavesNoGroup | autolevel.js:178 | after the first replacement no `(` is followed by a `)` |
| GcodeText.RemoveLineCommentsLeavesNoSemicolon | autolevel.js:179 | after the second replacement no `;` is left |
| GcodeText.StripCommentsClean | autolevel.js:177-182 | a stripped line holds no white space, no `;` and no complete `(...)` group |
| GcodeText.StripCommentsKept | autolevel.js:177-182 | on a line without line terminators, `stripComments` keeps exactly the characters that are not white space, lie outside every complete `(...)` group and come before the first `;` outside the groups, in their order (the reference `Kept`) |
| GcodeText.StripCommentsSemicolon | autolevel.js:179 | a line without line terminators that starts with `;` strips to nothing |
| GcodeText.StripCommentsGroup | autolevel.js:178 | a complete `(...)` group at the start of a line disappears with nothing else |
| GcodeText.StripCommentsPlain | autolevel.js:177-182 | any other non-space first character survives in front of what the rest of the line strips to |
| GcodeText.StripCommentsSpace | autolevel.js:178-181 | white space at the start of a line changes nothing, even in front of a group or a `;` |
| GcodeText.UnclosedParenthesisSurvives | autolevel.js:177-182 | a line without `)` and `;` only loses its white space, so an unmatched `(` survives |
| GcodeText.UpperAscii | autolevel.js:321-338 | the `i` flag: the folded character is never a lower-case letter; it is a capital exactly when the input is an ASCII letter, and then the input is that capital or its lower-case form; every other character is left unchanged |
| GcodeText.PassThroughWithoutG92Point1 | autolevel.js:321 | the pass-through test holds exactly when one of G38., G5., G10, G4., G92 occurs; the `G92.1` alternative never changes the outcome |
| GcodeText.CoordinateWord | autolevel.js:331-338 | a coordinate word that is found is a non-empty run of number characters |
| GcodeText.CoordinateWordLeftmost | autolevel.js:331-338 | `exec` finds a word exactly when the line holds the axis letter, in either case, followed by a number character; the value is the whole number run behind the leftmost such letter |
| GcodeText.CoordinateWordNeedsAxis | autolevel.js:328-338 | a coordinate word is only found on a line that passes the test for an X, Y or Z letter |
| GcodeText.StrippedLineHasNoCoordinates | autolevel.js:342 | after the coordinate words are removed, no X, Y or Z word can be found in the prefix |
| GcodeText.SplitLines | autolevel.js:303 | splitting on line feeds gives at least one line, none holding a line feed |
| GcodeText.SplitJoin | autolevel.js:303 | joining the split lines again gives back the text |
| GcodeText.JoinSplit | autolevel.js:370 | splitting joined lines gives back the lines, when none holds a line feed |
| Surface.SortByDistance | autolevel.js:252-254 | the sort returns a permutation of the store ordered by ascending XY distance to the query point |
| Surface.InsertKeepsSorted | autolevel.js:252-254 | inserting a point at its place keeps the order |
| Surface.FirstNonColinear | autolevel.js:256-266 | the scan stops at the first later point not colinear with the first two, all earlier ones being colinear |
| Surface.ThreeClosestShape | autolevel.js:247-268 | no points when the store holds fewer than 3; otherwise the two nearest points, then the nearest later point that is not colinear with them; three points exactly when such a point exists |
| Surface.ChosenPlaneIsNotVertical | autolevel.js:283-291 | the normal of three chosen points has z of magnitude at least 1e-5, so the `normal.z == 0` branch is unreachable |
| Surface.PlaneHeightOnPlane | autolevel.js:283-288 | any point on the plane gets its own z as height |
| Surface.PlaneThroughChosenPoints | autolevel.js:283-288 | the plane passes through each of the three chosen points |
| Surface.PlanarSurfaceIsExact | autolevel.js:283-288 | when the three points lie on a plane z = Ax + By + C, the height at every query point is that plane's |
| Surface.CompensationMovesOnlyZ | autolevel.js:270-297 | x and y come back unchanged; with fewer than 3 neighbours the point is returned as it is; otherwise z gains the plane height converted to the input units |
| Surface.CompensationAtChosenPoint | autolevel.js:270-297 | querying at a chosen point's XY with z = 0 in millimetres gives that point's z |
| Surface.CompensatesFromOrder | autolevel.js:252-297 | compensating with any sorted permutation of the store is an allowed result |
| Surface.CompensatesSameStore | autolevel.js:252-254 | the allowed results depend only on the multiset of stored points, so an earlier sort changes nothing |
| Surface.CompensatesMovesOnlyZ | autolevel.js:279-296 | every allowed result keeps x and y, and with fewer than 3 stored points is the input point |
| Surface.SumZConcat | autolevel.js:75 | the sum of heights is additive over concatenation |
| Surface.SumZPermutation | autolevel.js:252-254 | the sum of heights does not depend on the order of the store |
| Surface.StatsPush | autolevel.js:68-77 | after a push, the first point sets min, max and sum to its z; later points widen min and max and add to the sum; the statistics stay those of the store |
| Surface.StatsPermutation | autolevel.js:252 | sorting the store keeps min ≤ every z ≤ max and sum = Σz |
| Rewrite.Run | autolevel.js:319-367 | running the lines yields one plan per line |
| Rewrite.RunStep | autolevel.js:319 | running one more line steps from the state the earlier lines left and appends that line's plan |
| Rewrite.PlaceOne | autolevel.js:351-353 | one compensated point gives one output line with the prefix, the point and the original z |
| Rewrite.PlaceNext | autolevel.js:345-349 | each further segment point adds its output line |
| Rewrite.RealizesAppend | autolevel.js:319 | the output of one more line extends the output of the earlier lines |
| Rewrite.RealizesExtend | autolevel.js:319 | output that keeps the earlier output as a prefix and adds the lines of one more plan realizes the longer plan sequence |
| Rewrite.PassThroughUntouched | autolevel.js:321 | a pass-through line is copied stripped and leaves the whole modal state unchanged |
| Rewrite.ModalFlags | autolevel.js:323-326 | G90 sets absolute mode and G91 clears it; G21 selects millimetres and G20 inches; G90 and G21 win when both words of a pair occur; otherwise the mode is kept |
| Rewrite.NoCoordinatesCopied | autolevel.js:328-329 | a line without X, Y or Z is copied stripped, and the points and `p0_initialized` stay as they were |
| Rewrite.RelativeCopied | autolevel.js:356-358 | in relative mode a coordinate line is copied stripped |
| Rewrite.AbsoluteMoves | autolevel.js:340-355 | in absolute mode the coordinates are removed from the line, and it is placed at `[p0, pt]`, or at `[pt]` for the first such line, which sets `p0_initialized` |
| Rewrite.CoordinateLineMovesP0 | autolevel.js:331-364 | after a coordinate line, in either mode, `p0` and `pt` are the point read from the line |
| Rewrite.RunKeepsP0AtPt | autolevel.js:319-367 | between lines `p0` always equals `pt` |
| Rewrite.StepOutCount | autolevel.js:321-359 | a line yields one or two output lines |
| Rewrite.RunOutCounts | autolevel.js:319-367 | every line of a run yields one or two output lines |
| Rewrite.RealizesAtLeastOnePerPlan | autolevel.js:319-367 | output realizing plans that each yield at least one line is at least as long as the plans |
| Rewrite.OutputCoversInput | autolevel.js:319-367 | the compensated program has at least as many lines as the input |
| Grid.TargetsCons | autolevel.js:146-171 | the positions and probe count of a program are those of its first command plus the rest |
| Grid.TargetsAppend | autolevel.js:146-171 | positions and probe counts add over concatenation |
| Grid.PointBlockTargets | autolevel.js:167-171 | the block for one grid point moves to that point and probes once |
| Grid.OriginBlockTargets | autolevel.js:146-154 | the corner block moves to (xmin, ymin) and probes once |
| Grid.OriginBlockStep | autolevel.js:146-154 | which command of the corner block moves or probes |
| Grid.PointBlocksSnoc | autolevel.js:167-171 | one more grid point appends its block, numbered after the earlier ones |
| Grid.TargetsOfPointBlocks | autolevel.js:156-173 | the grid blocks visit exactly their points and probe once per point |
| Grid.TargetsOfPlan | autolevel.js:146-173 | the whole program visits the corner and then the grid points, with one probe each |
| Grid.RasterOrderedStrict | autolevel.js:156-173 | positions in raster order are strictly ordered, so no position is probed twice |
| Grid.AppendTarget | autolevel.js:156-173 | appending a later position inside the area keeps the positions in bounds and in raster order |
| Grid.StepCount | autolevel.js:144-145 | `parseInt(span / delta)` is the n ≥ 1 with n·delta ≤ span < (n+1)·delta |
| Grid.Spacing | autolevel.js:144-145 | the spacing is at least the step, and `StepCount` spacings cover the span exactly |
| Grid.LineCount | autolevel.js:158-166 | an axis loop computes exactly lines 0 to `LineCount - 1`: line k is reached exactly when line k - 1, unclamped, lies more than 0.01 below the far edge |
| Grid.AxisGuard | autolevel.js:158-164 | the guard of an axis loop sitting at line k - 1 holds exactly when line k is reached |
| Grid.AxisStep | autolevel.js:158-166 | one pass of an axis loop turns line k - 1 into line k, `min(lo + k·d, hi)`, which lies inside the area and beyond line k - 1 |
| Grid.ColumnsSnoc | autolevel.js:164-171 | one more pass of the inner loop appends the next column's point to the row |
| Grid.AxisLines | autolevel.js:144-166 | when the span is cut into n equal steps longer than 0.01, the loop computes lines 0 to n, none clamped, and line n is the far edge |
| Grid.RowsLength | autolevel.js:156-173 | the corner row holds all but the corner's column, every later row all columns |
| Grid.GridPointCount | autolevel.js:144-173 | with a step longer than 0.01 each axis has `parseInt(span / delta) + 1` lines, the last on the far edge, and the program probes their product of points, corner included |
| Grid.PlannedSnoc | autolevel.js:167-171 | appending the block of a later point inside the area keeps the program well formed, in bounds and in raster order, and numbers the block after the earlier ones |
| Grid.PlannedGrid | autolevel.js:156-173 | once every row is planned, the program meets `GridPlanned`, with the product count when the step is longer than 0.01 |
| Grid.PlanRow | autolevel.js:162-172 | the inner loop appends exactly the row's points `(min(xmin + i·dx, xmax), y)` for every i the loop reaches, from i = 1 on the corner's row and from i = 0 otherwise, one numbered block each |
| Grid.PlanGrid | autolevel.js:137-173 | the program is the corner block and then one block per point of `GridPoints`: row j at `min(ymin + j·dy, ymax)` for every j the outer loop reaches, and in each row the points `(min(xmin + i·dx, xmax), y)`, the corner row starting at i = 1, where dx and dy are the spans divided by `parseInt(span / delta)`; the count equals the number of G38.2 moves and of positions; positions lie inside the area in strict raster order, the corner first; with a step longer than 0.01 the count is `(parseInt(w / delta) + 1)·(parseInt(h / delta) + 1)` |
| Session.MaxSegmentLength | autolevel.js:225 | the segment length is positive when the step is |
| Session.SegmentPointDistance | autolevel.js:219-237 | a split point at distance d along the segment is exactly d from `p1` |
| Session.MultipleIsProduct | autolevel.js:231 | adding the step n times gives n times the step |
| Session.StepsLeftDecreases | autolevel.js:231-237 | each pass of the splitting loop brings its distance closer to the limit, so the loop ends |
| Session.SplitCount | autolevel.js:226-237 | a segment of positive length L split every S yields ceil(L / S) + 1 points: (n - 2)·S < L ≤ (n - 1)·S for n points |
| Session.Autolevel.constructor | autolevel.js:26-42 | the initial fields: no program, step 10, feed 50, height 2, an empty store and zero statistics, no planned points, a zero work offset |
| Session.Autolevel.OnLoad | autolevel.js:43-49 | a program whose name starts with `#AL:` is ignored; any other replaces the name and the text |
| Session.Autolevel.OnUnload | autolevel.js:51-55 | name and text are cleared |
| Session.Autolevel.OnProbeReply | autolevel.js:57-88 | ignored unless points are planned; otherwise stores reported − wco, keeping the statistics those of the store; once the store holds the planned number of points, sends the summary (min, max, average), compensates the program, loads it and resets the planned count |
| Session.Autolevel.StoreProbe | autolevel.js:68-77 | the point is appended; the first point sets the statistics, later ones widen min and max and add to the sum |
| Session.Autolevel.FinishRun | autolevel.js:80-84 | sends the summary over the whole store, then everything `applyCompensation` sends and loads, and resets the planned count |
| Session.Autolevel.Reapply | autolevel.js:93-103 | with no program, or fewer than 3 points stored, only a message is sent; otherwise the program is compensated against the stored points and loaded |
| Session.Autolevel.Start | autolevel.js:105-175 | with no program loaded, only a message is sent and nothing else changes; otherwise the new step, height and feed are taken, the work offset becomes mpos − pos, the store is emptied, and the probing program for the box shrunk by the margin (`M`, or a quarter of the step) is sent with its point count; that program probes the corner and then exactly the grid points of `GridPoints` for that box (as `Grid.PlanGrid` states), and with a step longer than 0.01 it probes `(parseInt(w / delta) + 1)·(parseInt(h / delta) + 1)` points |
| Session.Autolevel.Configure | autolevel.js:113-135 | the parameters, the margin, the work offset and the emptied store |
| Session.Autolevel.SendProbeProgram | autolevel.js:137-174 | sends a program that probes the corner and then exactly the points of `GridPoints` for the area, in bounds and in raster order, and records its point count, which is `(parseInt(w / delta) + 1)·(parseInt(h / delta) + 1)` when the step is longer than 0.01 |
| Session.Autolevel.SplitToSegments | autolevel.js:216-244 | the first point is `p1` and the last is `p2`; without units (as `applyCompensation` calls it) exactly `[p1, p2]`; with units, the points at every multiple of half a step short of the distance, in order, along the segment, `ceil(L / S) + 1` points in all for a segment of length L > 0 and piece length S |
| Session.Autolevel.SplitAlong | autolevel.js:226-243 | the loop of `splitToSegments` for a given step: end points kept, one point per multiple of the step below the distance |
| Session.Autolevel.GetThreeClosestPoints | autolevel.js:247-268 | the result is the neighbour choice over the sorted store; the store is only permuted, it is sorted by XY distance when it holds 3 or more points, and untouched otherwise |
| Session.Autolevel.Pick | autolevel.js:255-267 | the selection loop computes the neighbour choice |
| Session.Autolevel.CompensateZCoord | autolevel.js:270-297 | the result is an allowed compensation of the point against the store (plane height added to z, x and y kept), and the store is only permuted |
| Session.Autolevel.ReadModes | autolevel.js:323-326 | the modal flags after reading a line |
| Session.Autolevel.ReadPoint | autolevel.js:331-338 | the point after reading the X, Y and Z words of a line |
| Session.Autolevel.EmitMoves | autolevel.js:345-349 | one compensated output line per segment point, appended in order |
| Session.Autolevel.RewriteLine | autolevel.js:320-365 | steps the modal state exactly as `Step` does, and appends output that realizes that line's plan |
| Session.Autolevel.RewriteLines | autolevel.js:303-367 | the output of the loop realizes the plans of all the lines, against the store as it was before the loop |
| Session.Autolevel.CompensateProgram | autolevel.js:303-370 | the program to load is named `#AL:` + the file name, and its lines realize the run of the loaded text |
| Session.Autolevel.ApplyCompensation | autolevel.js:299-376 | sends the applying, loading and finished messages, and loads the compensated program under `#AL:` + the file name; the store is only permuted and its statistics stay valid |

## Left out

- Number parsing and formatting: `parseFloat` is a parameter, and the regular expressions for the `PRB` reply and the `D`/`H`/`F`/`M` options are not modelled. Their values arrive as inputs. `toFixed(3)` and the `trim` of output lines are not modelled, because output lines are records.
- IEEE-754 behaviour: coordinates are reals. The one NaN the code relies on, the missing units at autolevel.js:344, is modelled by its effect (no splitting). Elsewhere, preconditions keep the inputs in the range where the code terminates with finite numbers; the lines below say what the code does outside it.
- Session.Autolevel.Start and Session.GridFits: the model does not cover a `D` step outside `GridFits`. In the code:
  - A negative `D` makes `start` loop forever. For example, `D-10` on a 0..100 area gives margin −2.5, span 105 and `parseInt(105 / -10) = -10`, so the spacing is −10.5. Then `y` (autolevel.js:156-160) and `x` (autolevel.js:161-166) only decrease, neither `< max - 0.01` guard ever fails, and `code` grows without bound.
  - `D0` gives `parseInt(Infinity)`, which is NaN, so the spacing is NaN. Both loop guards fail at once, and only the corner is probed.
  - A positive `D` longer than a side gives `parseInt` 0 and an infinite spacing. The program probes the corner and one point with NaN coordinates.
  - A margin that leaves a side of length 0 or less is also outside `GridFits`. The model says nothing about it.
  - In every one of these cases the loop measure of `Grid.PlanGrid` (`LineCount`) would not exist. This is why `PlanGrid` and `Start` require a step that fits.
- Session.Autolevel.SplitToSegments and SplitAlong require a positive step when units are given. With a step of 0 or less, the loop at autolevel.js:231 never ends. The rewrite never reaches this case, because autolevel.js:344 passes no units.
- `Math.sqrt` is an uninterpreted function constrained by `Geometry.IsSqrt`.
- The `try`/`catch` around the rewrite (autolevel.js:302, 372-374) is left out. The modelled rewrite is total, so the error message is never sent.
- `console.log` output is left out.
- Socket plumbing is left out: the socket wrapper, event registration, the command and context plumbing of index.js, and `stopGcode`. Each handler is a method called one at a time. index.js never wires `reapply`; it is modelled anyway.
- The text of `loadGcode` (`result.join('\n')`) is not modelled: the loaded program is kept as its sequence of output lines. `GcodeText.SplitJoin` and `GcodeText.JoinSplit` relate splitting and joining.
- Session.Autolevel.GetThreeClosestPoints, CompensateZCoord, EmitMoves, RewriteLine, RewriteLines and CompensateProgram promise only that the store is permuted. They do not promise the class invariant `Valid()` about the statistics, which `ApplyCompensation` re-establishes with `Surface.StatsPermutation`.
- GcodeText.StripCommentsKept and GcodeText.StripCommentsSemicolon are stated for a line without line terminators. Lines come from splitting on line feeds, but a carriage return can remain. In `stripComments`, `.` does not match a line terminator, so the `;` comment ends at a carriage return and the text after it survives until `\s+` removes the carriage return itself. For example, `a;x\rb` strips to `ab`, while `Kept` stops at the `;` and gives `a`. GcodeText.StripCommentsGroup, StripCommentsPlain and StripCommentsSpace hold for any text.
- Session.Autolevel.CompensateZCoord does not state which of several equally distant points the sort puts first: the comparator does not decide that, so the result is stated for some sorted order of the store.

=== FILE: autolevel.dfy ===
/**
 * The `Autolevel` session object of autolevel.js: the loaded program, the probing
 * parameters, the probed-point store with its running statistics, and the handlers that
 * update them one event at a time. Messages sent to the controller and programs loaded into
 * it are appended to ghost histories; `Math.sqrt` and `parseFloat` are given to the
 * constructor.
 */
module Session {
  import opened Wrappers
  import opened Geometry
  import opened GcodeText
  import opened Surface
  import opened Grid
  import opened Rewrite

  /** Prefix of the names of the programs the engine loads itself. */
  const AlFileNamePrefix: string := "#AL:"

  /** What `sendGcode` sends, as records instead of formatted comments. */
  datatype Message =
    | NoGcodeLoaded                                   // (AL: no gcode loaded)
    | NoPreviousPoints                                // (AL: no previous autolevel points)
    | Started                                         // (AL: auto-leveling started)
    | ProbeProgram(code: seq<GridCmd>)                // the probing program, one command per line
    | Summary(minDz: real, maxDz: real, avgDz: real)  // (AL: dz_min=.., dz_max=.., dz_avg=..)
    | Applying                                        // (AL: applying compensation ...)
    | Loading(name: string)                           // (AL: loading new gcode <name> ...)
    | Finished                                        // (AL: finished)

  /** What `loadGcode` loads: a name and the lines of the program. */
  datatype LoadedProgram = LoadedProgram(name: string, lines: seq<OutLine>)

  /** The numbers `start` reads from its command (`D`, `H`, `F`, `M`), when present. */
  datatype StartOptions = StartOptions(step: Option<real>, height: Option<real>, feed: Option<real>,
                                       margin: Option<real>)

  /** The machine context `start` receives: machine and work positions and the program's
      bounding box. */
  datatype StartContext = StartContext(mpos: Point, pos: Point, xmin: real, xmax: real, ymin: real, ymax: real)

  /** The step `start` will use. */
  function NewDelta(opts: StartOptions, delta: real): real
  {
    opts.step.GetOr(delta)
  }

  /** The margin `start` will use: `M` when given, else a quarter of the new step. */
  function Margin(opts: StartOptions, delta: real): real
  {
    opts.margin.GetOr(NewDelta(opts, delta) / 4.0)
  }

  /** The grid spacing of `start` is defined: each side of the area left inside the margin
      holds at least one step. */
  predicate GridFits(opts: StartOptions, ctx: StartContext, delta: real)
  {
    var d := NewDelta(opts, delta);
    var m := Margin(opts, delta);
    0.0 < d <= (ctx.xmax - m) - (ctx.xmin + m) && d <= (ctx.ymax - m) - (ctx.ymin + m)
  }

  /** `msg` is a probing program for the area `[xmin, xmax] x [ymin, ymax]` that probes
      `count` points of the grid of step `delta` at the given clearance height and feed. (The program is named by a bound
      variable so that the grid facts are only unfolded where a proof asks about them.) */
  ghost predicate ProbesGrid(msg: Message, count: nat, xmin: real, xmax: real, ymin: real, ymax: real,
                             delta: real, height: real, feed: real)
  {
    msg.ProbeProgram?
    && forall code :: code == msg.code ==> GridPlanned(code, count, xmin, xmax, ymin, ymax, delta, height, feed)
  }

  /** `prog` is the compensated version of the program text `gcode` loaded as `fileName`,
      computed against the probed points `store`: its lines realize the plans the lines of
      `gcode` run to. (The plans are named by a bound variable so that the fact is only
      unfolded where a proof asks about `Realizes` of those lines.) */
  ghost predicate CompensatedProgram(prog: LoadedProgram, parse: string -> real, fileName: string,
                                     gcode: string, store: seq<Point>)
  {
    prog.name == AlFileNamePrefix + fileName
    && forall plans :: plans == Run(parse, SplitLines(gcode)).plans ==> Realizes(plans, prog.lines, store)
  }

  /** The point at distance `d` from `p1` along the direction to `p2`, `dist` being their
      distance. */
  function SegmentPoint(p1: Point, p2: Point, dist: real, d: real): Point
    requires dist != 0.0
  {
    var v := Sub3(p2, p1);
    Point(p1.x + v.x / dist * d, p1.y + v.y / dist * d, p1.z + v.z / dist * d)
  }

  /** Scaling a vector by `f` scales its squared length by `f * f`. */
  lemma ScaledLength(a: real, b: real, c: real, f: real)
    ensures (a * f) * (a * f) + (b * f) * (b * f) + (c * f) * (c * f) == (a * a + b * b + c * c) * (f * f)
  {
  }

  /** `d / dist` of `dist`, squared, is `d * d`. */
  lemma RatioSquared(d: real, dist: real)
    requires dist > 0.0
    ensures (dist * dist) * ((d / dist) * (d / dist)) == d * d
  {
    var f := d / dist;
    assert f * dist == d;
    assert (dist * dist) * (f * f) == (f * dist) * (f * dist);
  }

  /** Moving `d` along a direction of length `dist` moves each coordinate by its share. */
  lemma ScaleStep(u: real, dist: real, d: real)
    requires dist > 0.0
    ensures u / dist * d == u * (d / dist)
  {
  }

  /** A split point lies at distance `d` from the start of the segment. */
  lemma SegmentPointDistance(p1: Point, p2: Point, dist: real, d: real)
    requires dist > 0.0 && dist * dist == DistanceSquared3(p1, p2)
    ensures DistanceSquared3(p1, SegmentPoint(p1, p2, dist, d)) == d * d
  {
    var f := d / dist;
    var a, b, c := (p2.x - p1.x) * f, (p2.y - p1.y) * f, (p2.z - p1.z) * f;
    SegmentPointSquared(p1, p2, dist, d);
    assert DistanceSquared3(p1, SegmentPoint(p1, p2, dist, d)) == a * a + b * b + c * c;
    ScaledDistance(p1, p2, dist, d);
  }

  /** The squared distance of a split point from the start, as the scaled offsets. */
  lemma SegmentPointSquared(p1: Point, p2: Point, dist: real, d: real)
    requires dist > 0.0
    ensures var a, b, c, f := p2.x - p1.x, p2.y - p1.y, p2.z - p1.z, d / dist;
      DistanceSquared3(p1, SegmentPoint(p1, p2, dist, d)) == (a * f) * (a * f) + (b * f) * (b * f) + (c * f) * (c * f)
  {
    var f := d / dist;
    SegmentOffsets(p1, p2, dist, d);
    OffsetDistance(p1, SegmentPoint(p1, p2, dist, d), (p2.x - p1.x) * f, (p2.y - p1.y) * f, (p2.z - p1.z) * f);
  }

  /** Each coordinate of a split point is offset from the start by its share of `d`. */
  lemma SegmentOffsets(p1: Point, p2: Point, dist: real, d: real)
    requires dist > 0.0
    ensures var q := SegmentPoint(p1, p2, dist, d);
      q.x - p1.x == (p2.x - p1.x) * (d / dist) && q.y - p1.y == (p2.y - p1.y) * (d / dist)
      && q.z - p1.z == (p2.z - p1.z) * (d / dist)
  {
    ScaleStep(p2.x - p1.x, dist, d);
    ScaleStep(p2.y - p1.y, dist, d);
    ScaleStep(p2.z - p1.z, dist, d);
  }

  /** A vector of length `dist` scaled by `d / dist` has length `d`. */
  lemma ScaledDistance(p1: Point, p2: Point, dist: real, d: real)
    requires dist > 0.0 && dist * dist == DistanceSquared3(p1, p2)
    ensures var a, b, c, f := p2.x - p1.x, p2.y - p1.y, p2.z - p1.z, d / dist;
      (a * f) * (a * f) + (b * f) * (b * f) + (c * f) * (c * f) == d * d
  {
    ScaledLength(p2.x - p1.x, p2.y - p1.y, p2.z - p1.z, d / dist);
    RatioSquared(d, dist);
  }

  /** The squared distance to a point offset by `(a, b, c)`. */
  lemma OffsetDistance(p: Point, q: Point, a: real, b: real, c: real)
    requires q.x - p.x == a && q.y - p.y == b && q.z - p.z == c
    ensures DistanceSquared3(p, q) == a * a + b * b + c * c
  {
  }

  /** `n` steps of length `step`, added one at a time as the loop of `splitToSegments` does. */
  function Multiple(n: nat, step: real): real
  {
    if n == 0 then 0.0 else Multiple(n - 1, step) + step
  }

  /** Adding the step `n` times is multiplying it by `n`. */
  lemma {:induction false} MultipleIsProduct(n: nat, step: real)
    ensures Multiple(n, step) == n as real * step
  {
    if n > 0 {
      MultipleIsProduct(n - 1, step);
      assert (n - 1) as real * step + step == n as real * step;
    }
  }

  /** `pts` splits the segment from `p1` to `p2`, of length `dist`, into pieces no longer
      than `step`: the split points lie at every multiple of `step` short of `dist`. */
  predicate SplitEvery(p1: Point, p2: Point, dist: real, step: real, pts: seq<Point>)
  {
    |pts| >= 2 && Multiple(|pts| - 1, step) >= dist
    && (|pts| > 2 ==>
          dist > 0.0 && Multiple(|pts| - 2, step) < dist
          && forall k :: 1 <= k < |pts| - 1 ==> pts[k] == SegmentPoint(p1, p2, dist, Multiple(k, step)))
  }

  /** The points `splitToSegments` has pushed so far: the start, then the split points at the
      multiples of `step` below `dist`. */
  predicate SplitPrefix(p1: Point, p2: Point, dist: real, step: real, res: seq<Point>)
  {
    |res| >= 1 && res[0] == p1
    && (|res| > 1 ==>
          dist > 0.0 && Multiple(|res| - 1, step) < dist
          && forall j :: 1 <= j < |res| ==> res[j] == SegmentPoint(p1, p2, dist, Multiple(j, step)))
  }

  /** One more pass of the loop of `splitToSegments` pushes the point at the next multiple. */
  lemma SplitStep(p1: Point, p2: Point, dist: real, step: real, res: seq<Point>)
    requires step > 0.0 && SplitPrefix(p1, p2, dist, step, res) && Multiple(|res|, step) < dist
    ensures dist > 0.0
    ensures SplitPrefix(p1, p2, dist, step, res + [SegmentPoint(p1, p2, dist, Multiple(|res|, step))])
  {
    MultipleIsProduct(|res|, step);
    assert |res| as real * step >= step by {
      assert |res| as real >= 1.0;
    }
  }

  /** Pushing the end point after the loop completes the split. */
  lemma SplitFinish(p1: Point, p2: Point, dist: real, step: real, res: seq<Point>)
    requires SplitPrefix(p1, p2, dist, step, res) && Multiple(|res|, step) >= dist
    ensures |res + [p2]| >= 2 && (res + [p2])[0] == p1 && (res + [p2])[|res|] == p2
    ensures SplitEvery(p1, p2, dist, step, res + [p2])
  {
    var all := res + [p2];
    assert forall k :: 0 <= k < |res| ==> all[k] == res[k];
  }

  /** Loop measure: how many more steps of `step` from `v` can stay below `limit`. */
  function StepsLeft(v: real, limit: real, step: real): int
    requires step > 0.0
  {
    if v < limit then ((limit - v) / step).Floor + 1 else 0
  }

  /** One pass of the loop of `splitToSegments` leaves fewer steps. */
  lemma StepsLeftDecreases(v: real, limit: real, step: real)
    requires step > 0.0 && v < limit
    ensures StepsLeft(v, limit, step) > 0
    ensures StepsLeft(v + step, limit, step) < StepsLeft(v, limit, step)
  {
    var a := limit - v;
    assert step / step == 1.0;
    assert (a - step) / step == a / step - step / step;
    assert limit - (v + step) == a - step;
  }

  /** `n` points cut a length `dist` into ceil(dist / step) pieces of at most `step`:
      n - 1 steps reach `dist`, n - 2 fall short. */
  predicate PieceCount(n: int, dist: real, step: real)
  {
    (n - 2) as real * step < dist <= (n - 1) as real * step
  }

  /** A segment of positive length is cut into ceil(dist / step) pieces, that is
      ceil(dist / step) + 1 points: the last multiple of the step reaches `dist`, the one
      before it falls short. */
  lemma SplitCount(p1: Point, p2: Point, dist: real, step: real, pts: seq<Point>)
    requires SplitEvery(p1, p2, dist, step, pts) && dist > 0.0
    ensures PieceCount(|pts|, dist, step)
  {
    MultipleIsProduct(|pts| - 1, step);
    MultipleIsProduct(|pts| - 2, step);
  }

  /** The longest piece `splitToSegments` allows: half a step, in the units of the move. */
  function MaxSegmentLength(delta: real, units: Unit): (r: real)
    ensures delta > 0.0 ==> r > 0.0
  {
    Convert(delta, Millimeters, units) / 2.0
  }

  class Autolevel {
    var gcodeFileName: string
    var gcode: string
    var delta: real
    var feed: real
    var height: real
    var probedPoints: seq<Point>
    var minDz: real
    var maxDz: real
    var sumDz: real
    var planedPointCount: nat
    var wco: Point
    /** Everything sent with `sendGcode`, oldest first. */
    ghost var sent: seq<Message>
    /** Everything loaded with `loadGcode`, oldest first. */
    ghost var loaded: seq<LoadedProgram>
    /** `Math.sqrt`. */
    const sqrt: real -> real
    /** `parseFloat` on a run of number characters. */
    const parseNumber: string -> real

    ghost predicate Valid()
      reads this`probedPoints, this`minDz, this`maxDz, this`sumDz
    {
      IsSqrt(sqrt) && StatsOf(probedPoints, minDz, maxDz, sumDz)
    }

    constructor(sqrt: real -> real, parseNumber: string -> real)
      requires IsSqrt(sqrt)
      ensures Valid()
      ensures this.sqrt == sqrt && this.parseNumber == parseNumber
      ensures gcodeFileName == "" && gcode == ""
      ensures delta == 10.0 && feed == 50.0 && height == 2.0
      ensures probedPoints == [] && minDz == 0.0 && maxDz == 0.0 && sumDz == 0.0
      ensures planedPointCount == 0 && wco == Origin
      ensures sent == [] && loaded == []
    {
      this.sqrt := sqrt;
      this.parseNumber := parseNumber;
      gcodeFileName := "";
      gcode := "";
      delta := 10.0;
      feed := 50.0;
      height := 2.0;
      probedPoints := [];
      minDz := 0.0;
      maxDz := 0.0;
      sumDz := 0.0;
      planedPointCount := 0;
      wco := Origin;
      sent := [];
      loaded := [];
    }

    /** The `gcode:load` handler: a program whose name starts with `#AL:` is the engine's
        own output and is not taken as the program to compensate. */
    method OnLoad(file: string, gc: string)
      modifies this`gcodeFileName, this`gcode
      requires Valid()
      ensures Valid()
      ensures AlFileNamePrefix <= file ==> gcodeFileName == old(gcodeFileName) && gcode == old(gcode)
      ensures !(AlFileNamePrefix <= file) ==> gcodeFileName == file && gcode == gc
    {
      if !(AlFileNamePrefix <= file) {
        gcodeFileName := file;
        gcode := gc;
      }
    }

    /** The `gcode:unload` handler. */
    method OnUnload()
      modifies this`gcodeFileName, this`gcode
      requires Valid()
      ensures Valid()
      ensures gcodeFileName == "" && gcode == ""
    {
      gcodeFileName := "";
      gcode := "";
    }

    /** The probe-reply part of the `serialport:read` handler, given the reported position.
        Outside a probing run (no planned points) the reply is ignored. Otherwise the point
        relative to the work offset is stored and the statistics updated; the reply that
        completes the run sends the summary, compensates the program and ends the run. */
    method OnProbeReply(reported: Point)
      modifies this`probedPoints, this`minDz, this`maxDz, this`sumDz, this`planedPointCount, this`sent, this`loaded
      requires Valid()
      ensures Valid()
      ensures old(planedPointCount) == 0 ==>
        probedPoints == old(probedPoints) && minDz == old(minDz) && maxDz == old(maxDz)
        && sumDz == old(sumDz) && planedPointCount == 0 && sent == old(sent) && loaded == old(loaded)
      ensures old(planedPointCount) > 0 ==>
        multiset(probedPoints) == multiset(old(probedPoints) + [Sub3(reported, old(wco))])
      ensures old(planedPointCount) > 0 && |old(probedPoints)| + 1 < old(planedPointCount) ==>
        probedPoints == old(probedPoints) + [Sub3(reported, old(wco))]
        && planedPointCount == old(planedPointCount) && sent == old(sent) && loaded == old(loaded)
      ensures old(planedPointCount) > 0 && |old(probedPoints)| + 1 >= old(planedPointCount) ==>
        planedPointCount == 0
        && sent == old(sent) + [Summary(minDz, maxDz, sumDz / (|old(probedPoints)| + 1) as real),
                                Applying, Loading(AlFileNamePrefix + gcodeFileName), Finished]
        && |loaded| == |old(loaded)| + 1 && loaded[..|old(loaded)|] == old(loaded)
        && CompensatedProgram(loaded[|old(loaded)|], parseNumber, gcodeFileName, gcode,
                              old(probedPoints) + [Sub3(reported, old(wco))])
    {
      var pt := Sub3(reported, wco);
      if planedPointCount > 0 {
        StoreProbe(pt);
        if |probedPoints| >= planedPointCount {
          FinishRun();
        }
      }
    }

    /** Store one probed point and update the running statistics: the first point of a run
        sets all three, a later one widens the bounds when needed and adds to the sum. */
    method StoreProbe(pt: Point)
      modifies this`probedPoints, this`minDz, this`maxDz, this`sumDz
      requires Valid()
      ensures Valid()
      ensures probedPoints == old(probedPoints) + [pt]
      ensures old(probedPoints) == [] ==> minDz == pt.z && maxDz == pt.z && sumDz == pt.z
      ensures old(probedPoints) != [] ==>
        minDz == (if pt.z < old(minDz) then pt.z else old(minDz))
        && maxDz == (if pt.z > old(maxDz) then pt.z else old(maxDz)) && sumDz == old(sumDz) + pt.z
    {
      StatsPush(probedPoints, minDz, maxDz, sumDz, pt);
      if |probedPoints| == 0 {
        minDz := pt.z;
        maxDz := pt.z;
        sumDz := pt.z;
      } else {
        if pt.z < minDz {
          minDz := pt.z;
        }
        if pt.z > maxDz {
          maxDz := pt.z;
        }
        sumDz := sumDz + pt.z;
      }
      probedPoints := probedPoints + [pt];
    }

    /** The end of a probing run: send the summary, compensate the program, stop expecting
        replies. */
    method FinishRun()
      modifies this`probedPoints, this`planedPointCount, this`sent, this`loaded
      requires Valid() && probedPoints != []
      ensures Valid()
      ensures multiset(probedPoints) == multiset(old(probedPoints))
      ensures planedPointCount == 0
      ensures sent == old(sent) + [Summary(minDz, maxDz, sumDz / |old(probedPoints)| as real),
                                   Applying, Loading(AlFileNamePrefix + gcodeFileName), Finished]
      ensures |loaded| == |old(loaded)| + 1 && loaded[..|old(loaded)|] == old(loaded)
      ensures CompensatedProgram(loaded[|old(loaded)|], parseNumber, gcodeFileName, gcode, old(probedPoints))
    {
      var summary := Summary(minDz, maxDz, sumDz / |probedPoints| as real);
      sent := sent + [summary];
      ghost var before := sent;
      ApplyCompensation();
      assert sent == old(sent) + [summary] + [Applying, Loading(AlFileNamePrefix + gcodeFileName), Finished];
      planedPointCount := 0;
    }

    /** `reapply`: compensate the loaded program again with the stored points, unless there
        is no program or fewer than three points. */
    method Reapply()
      modifies this`probedPoints, this`sent, this`loaded
      requires Valid()
      ensures Valid()
      ensures multiset(probedPoints) == multiset(old(probedPoints))
      ensures old(gcode) == "" ==>
        (sent == old(sent) + [NoGcodeLoaded] && loaded == old(loaded) && probedPoints == old(probedPoints))
      ensures old(gcode) != "" && |old(probedPoints)| < 3 ==>
        sent == old(sent) + [NoPreviousPoints] && loaded == old(loaded) && probedPoints == old(probedPoints)
      ensures old(gcode) != "" && |old(probedPoints)| >= 3 ==>
        sent == old(sent) + [Applying, Loading(AlFileNamePrefix + gcodeFileName), Finished]
        && |loaded| == |old(loaded)| + 1 && loaded[..|old(loaded)|] == old(loaded)
        && CompensatedProgram(loaded[|old(loaded)|], parseNumber, gcodeFileName, gcode, old(probedPoints))
    {
      if gcode == "" {
        sent := sent + [NoGcodeLoaded];
        return;
      }
      if |probedPoints| < 3 {
        sent := sent + [NoPreviousPoints];
        return;
      }
      ApplyCompensation();
    }

    /** `start`: with a program loaded, take the new parameters, set the work offset, clear
        the store and send the probing program for the bounding box shrunk by the margin.
        The statistics are left as they are; the first reply of the run resets them. */
    method Start(opts: StartOptions, ctx: StartContext)
      modifies this`delta, this`height, this`feed, this`wco, this`probedPoints, this`planedPointCount, this`sent
      requires Valid()
      requires gcode != "" ==> GridFits(opts, ctx, delta)
      ensures Valid()
      ensures old(gcode) == "" ==>
        sent == old(sent) + [NoGcodeLoaded] && delta == old(delta) && feed == old(feed)
        && height == old(height) && probedPoints == old(probedPoints)
        && planedPointCount == old(planedPointCount) && wco == old(wco)
      ensures old(gcode) != "" ==>
        delta == NewDelta(opts, old(delta)) && height == opts.height.GetOr(old(height))
        && feed == opts.feed.GetOr(old(feed))
        && wco == Sub3(ctx.mpos, ctx.pos) && probedPoints == []
        && |sent| == |old(sent)| + 2 && sent[..|old(sent)|] == old(sent)
        && sent[|old(sent)|] == Started
        && ProbesGrid(sent[|old(sent)| + 1], planedPointCount,
                      ctx.xmin + Margin(opts, old(delta)), ctx.xmax - Margin(opts, old(delta)),
                      ctx.ymin + Margin(opts, old(delta)), ctx.ymax - Margin(opts, old(delta)),
                      delta, height, feed)
        && (delta > GridTolerance ==>
              planedPointCount
              == (StepCount((ctx.xmax - Margin(opts, old(delta))) - (ctx.xmin + Margin(opts, old(delta))), delta) + 1)
               * (StepCount((ctx.ymax - Margin(opts, old(delta))) - (ctx.ymin + Margin(opts, old(delta))), delta) + 1))
    {
      if gcode == "" {
        sent := sent + [NoGcodeLoaded];
        return;
      }
      sent := sent + [Started];
      var margin := Configure(opts, ctx);
      assert Valid();
      var code := SendProbeProgram(ctx.xmin + margin, ctx.xmax - margin, ctx.ymin + margin, ctx.ymax - margin);
      assert sent == old(sent) + [Started, ProbeProgram(code)];
    }

    /** The settings part of `start`: take the new parameters, set the work offset and
        clear the store; `margin` is the margin the grid is planned with. */
    method Configure(opts: StartOptions, ctx: StartContext) returns (margin: real)
      modifies this`delta, this`height, this`feed, this`wco, this`probedPoints, this`planedPointCount
      ensures delta == NewDelta(opts, old(delta)) && height == opts.height.GetOr(old(height))
      ensures feed == opts.feed.GetOr(old(feed)) && margin == Margin(opts, old(delta))
      ensures wco == Sub3(ctx.mpos, ctx.pos) && probedPoints == [] && planedPointCount == 0
    {
      delta := opts.step.GetOr(delta);
      height := opts.height.GetOr(height);
      feed := opts.feed.GetOr(feed);
      margin := opts.margin.GetOr(delta / 4.0);
      wco := Sub3(ctx.mpos, ctx.pos);
      probedPoints := [];
      planedPointCount := 0;
    }

    /** The grid part of `start`: plan the probing program over the area left inside the
        margin, record how many points it probes and send it. */
    method SendProbeProgram(xmin: real, xmax: real, ymin: real, ymax: real) returns (code: seq<GridCmd>)
      modifies this`planedPointCount, this`sent
      requires 0.0 < delta <= xmax - xmin && delta <= ymax - ymin
      ensures sent == old(sent) + [ProbeProgram(code)]
      ensures ProbesGrid(ProbeProgram(code), planedPointCount, xmin, xmax, ymin, ymax, delta, height, feed)
      ensures delta > GridTolerance ==>
        planedPointCount == (StepCount(xmax - xmin, delta) + 1) * (StepCount(ymax - ymin, delta) + 1)
    {
      var count;
      code, count := PlanGrid(xmin, xmax, ymin, ymax, delta, height, feed);
      planedPointCount := count;
      sent := sent + [ProbeProgram(code)];
    }

    /** `splitToSegments(p1, p2, units)`: the end points, and between them the points every
        half step along the segment. Without units (as `applyCompensation` calls it) the
        step is `NaN`, no comparison with it holds and only the end points come back. */
    method SplitToSegments(p1: Point, p2: Point, units: Option<Unit>) returns (res: seq<Point>)
      requires units.Some? ==> delta > 0.0
      ensures |res| >= 2 && res[0] == p1 && res[|res| - 1] == p2
      ensures units == None ==> res == [p1, p2]
      ensures units.Some? ==> SplitEvery(p1, p2, sqrt(DistanceSquared3(p1, p2)), MaxSegmentLength(delta, units.value), res)
      ensures units.Some? && sqrt(DistanceSquared3(p1, p2)) > 0.0 ==>
        PieceCount(|res|, sqrt(DistanceSquared3(p1, p2)), MaxSegmentLength(delta, units.value))
    {
      var dist := sqrt(DistanceSquared3(p1, p2));
      match units {
        case None =>
          res := [p1, p2];
        case Some(u) =>
          res := SplitAlong(p1, p2, dist, MaxSegmentLength(delta, u));
          if dist > 0.0 {
            SplitCount(p1, p2, dist, MaxSegmentLength(delta, u), res);
          }
      }
    }

    /** The loop of `splitToSegments` for a known step length. */
    static method SplitAlong(p1: Point, p2: Point, dist: real, step: real) returns (res: seq<Point>)
      requires step > 0.0
      ensures |res| >= 2 && res[0] == p1 && res[|res| - 1] == p2
      ensures SplitEvery(p1, p2, dist, step, res)
    {
      res := [p1];
      var d := step;
      while d < dist
        invariant SplitPrefix(p1, p2, dist, step, res) && d == Multiple(|res|, step)
        decreases StepsLeft(d, dist, step)
      {
        StepsLeftDecreases(d, dist, step);
        SplitStep(p1, p2, dist, step, res);
        res := res + [SegmentPoint(p1, p2, dist, d)];
        d := d + step;
      }
      SplitFinish(p1, p2, dist, step, res);
      res := res + [p2];
    }

    /** `getThreeClosestPoints(pt)`: sort the store by XY distance to `pt` (when it holds
        three points or more) and pick the neighbours. */
    method GetThreeClosestPoints(pt: Point) returns (res: seq<Point>)
      modifies this`probedPoints
      ensures res == ThreeClosest(probedPoints)
      ensures multiset(probedPoints) == multiset(old(probedPoints))
      ensures |probedPoints| >= 3 ==> SortedByDistance(probedPoints, pt)
      ensures |old(probedPoints)| < 3 ==> probedPoints == old(probedPoints)
    {
      res := [];
      if |probedPoints| < 3 {
        return;
      }
      ghost var before := probedPoints;
      probedPoints := SortByDistance(probedPoints, pt);
      var pts := probedPoints;
      assert |pts| == |multiset(pts)| == |before|;
      res := Pick(pts);
    }

    /** The selection loop of `getThreeClosestPoints` over the sorted store. */
    static method Pick(pts: seq<Point>) returns (res: seq<Point>)
      requires |pts| >= 3
      ensures res == ThreeClosest(pts)
    {
      res := [];
      var i := 0;
      while |res| < 3 && i < |pts|
        invariant 0 <= i <= |pts| && |res| <= 3 && |res| <= i
        invariant i <= 2 ==> res == pts[..i]
        invariant i >= 2 ==> |res| >= 2 && res[..2] == pts[..2]
        invariant i >= 2 && |res| == 2 ==> FirstNonColinear(pts[0], pts[1], pts[2..]) >= i - 2
        invariant |res| == 3 ==> FirstNonColinear(pts[0], pts[1], pts[2..]) == i - 3 && res[2] == pts[i - 1]
      {
        if |res| == 2 {
          assert pts[2..][i - 2] == pts[i];
          if !Colinear3(res[0], res[1], pts[i]) {
            res := res + [pts[i]];
          }
        } else {
          res := res + [pts[i]];
        }
        i := i + 1;
      }
      assert |res| == 2 ==> i == |pts|;
    }

    /** `compensateZCoord(pt, units)`. */
    method CompensateZCoord(pt: Point, units: Unit) returns (r: Point)
      modifies this`probedPoints
      ensures Compensates(old(probedPoints), pt, units, r)
      ensures multiset(probedPoints) == multiset(old(probedPoints))
    {
      var mm := ToMillimeters(pt, units);
      var points := GetThreeClosestPoints(mm);
      if |points| < 3 {
        r := pt;
      } else {
        ThreeClosestShape(probedPoints);
        var normal := CrossProduct3(Sub3(points[1], points[0]), Sub3(points[2], points[0]));
        assert normal == Normal(points);
        var pp := points[0];
        var dz := 0.0;
        if normal.z != 0.0 {
          dz := pp.z - (normal.x * (mm.x - pp.x) + normal.y * (mm.y - pp.y)) / normal.z;
          PlaneHeightUnfold(points, mm, normal, pp);
        }
        assert dz == PlaneHeight(points, mm);
        r := Point(Convert(mm.x, Millimeters, units), Convert(mm.y, Millimeters, units),
                   Convert(mm.z + dz, Millimeters, units));
      }
      assert r == CompensateWith(probedPoints, pt, units);
      CompensatesFromOrder(old(probedPoints), probedPoints, pt, units);
    }

    /** The four modal tests of `applyCompensation`. */
    static method ReadModes(s: string, st: ModalState) returns (st': ModalState)
      ensures st' == st.(absolute := NextAbsolute(s, st.absolute), units := NextUnits(s, st.units))
    {
      st' := st;
      if Contains(s, "G91") {
        st' := st'.(absolute := false);
      }
      if Contains(s, "G90") {
        st' := st'.(absolute := true);
      }
      if Contains(s, "G20") {
        st' := st'.(units := Inches);
      }
      if Contains(s, "G21") {
        st' := st'.(units := Millimeters);
      }
    }

    /** The three coordinate reads of `applyCompensation`. */
    method ReadPoint(s: string, pt: Point) returns (pt': Point)
      ensures pt' == NextPoint(parseNumber, s, pt)
    {
      pt' := pt;
      var xMatch := CoordinateWord(s, 'X');
      if xMatch.Some? {
        pt' := pt'.(x := parseNumber(xMatch.value));
      }
      var yMatch := CoordinateWord(s, 'Y');
      if yMatch.Some? {
        pt' := pt'.(y := parseNumber(yMatch.value));
      }
      var zMatch := CoordinateWord(s, 'Z');
      if zMatch.Some? {
        pt' := pt'.(z := parseNumber(zMatch.value));
      }
    }

    /** Compensate each point and append its output line. */
    method EmitMoves(prefix: string, segs: seq<Point>, units: Unit, result: seq<OutLine>, ghost store: seq<Point>)
      returns (result': seq<OutLine>)
      modifies this`probedPoints
      requires multiset(probedPoints) == multiset(store)
      ensures multiset(probedPoints) == multiset(store)
      ensures |result'| >= |result| && result'[..|result|] == result
      ensures RealizesOne(Place(prefix, segs, units), result'[|result|..], store)
    {
      var moved: seq<OutLine> := [];
      var i := 0;
      while i < |segs|
        invariant 0 <= i <= |segs|
        invariant multiset(probedPoints) == multiset(store)
        invariant RealizesOne(Place(prefix, segs[..i], units), moved, store)
      {
        ghost var here := probedPoints;
        var cpt := CompensateZCoord(segs[i], units);
        CompensatesSameStore(here, store, segs[i], units, cpt);
        PlaceOne(prefix, segs[i], units, cpt, store);
        PlaceNext(prefix, segs, i, units, moved, store, Moved(prefix, cpt, segs[i].z));
        moved := moved + [Moved(prefix, cpt, segs[i].z)];
        i := i + 1;
      }
      assert segs[..i] == segs;
      result' := result + moved;
      assert result'[|result|..] == moved;
    }

    /** The body of the `forEach` of `applyCompensation` for one line: updates the modal
        state and appends the line's output to `result`. */
    method RewriteLine(st: ModalState, line: string, result: seq<OutLine>, ghost store: seq<Point>)
      returns (st': ModalState, result': seq<OutLine>, ghost plan: Plan)
      modifies this`probedPoints
      requires multiset(probedPoints) == multiset(store)
      ensures multiset(probedPoints) == multiset(store)
      ensures Step(parseNumber, st, line) == Stepped(st', plan)
      ensures |result'| >= |result| && result'[..|result|] == result
      ensures RealizesOne(plan, result'[|result|..], store)
    {
      var lineStripped := StripComments(line);
      plan := Step(parseNumber, st, line).plan;
      if IsPassThrough(lineStripped) {
        st', result' := st, result + [Text(lineStripped)];
        assert result'[|result|..] == [Text(lineStripped)];
        return;
      }
      st' := ReadModes(lineStripped, st);
      if !HasAxisLetter(lineStripped) {
        result' := result + [Text(lineStripped)];
        assert result'[|result|..] == [Text(lineStripped)];
        return;
      }
      var pt := ReadPoint(lineStripped, st'.pt);
      st' := st'.(pt := pt);
      if st'.absolute {
        var prefix := StripCoordinates(lineStripped);
        if st'.p0Initialized {
          var segs := SplitToSegments(st'.p0, pt, None);
          assert plan == Place(prefix, segs, st'.units);
          result' := EmitMoves(prefix, segs, st'.units, result, store);
        } else {
          ghost var here := probedPoints;
          var cpt := CompensateZCoord(pt, st'.units);
          CompensatesSameStore(here, store, pt, st'.units, cpt);
          PlaceOne(prefix, pt, st'.units, cpt, store);
          result' := result + [Moved(prefix, cpt, pt.z)];
          assert result'[|result|..] == [Moved(prefix, cpt, pt.z)];
          assert plan == Place(prefix, [pt], st'.units);
          st' := st'.(p0Initialized := true);
        }
      } else {
        result' := result + [Text(lineStripped)];
        assert result'[|result|..] == [Text(lineStripped)];
      }
      st' := st'.(p0 := pt);
    }

    /** `applyCompensation`: rewrite every line of the loaded program and load the result
        under the `#AL:` name. The store is sorted again for each compensated point, which
        only permutes it. */
    method ApplyCompensation()
      modifies this`probedPoints, this`sent, this`loaded
      requires Valid()
      ensures Valid()
      ensures multiset(probedPoints) == multiset(old(probedPoints))
      ensures sent == old(sent) + [Applying, Loading(AlFileNamePrefix + gcodeFileName), Finished]
      ensures |loaded| == |old(loaded)| + 1 && loaded[..|old(loaded)|] == old(loaded)
      ensures CompensatedProgram(loaded[|old(loaded)|], parseNumber, gcodeFileName, gcode, old(probedPoints))
    {
      sent := sent + [Applying];
      var prog := CompensateProgram();
      StatsPermutation(old(probedPoints), probedPoints, minDz, maxDz, sumDz);
      sent := sent + [Loading(prog.name)];
      loaded := loaded + [prog];
      sent := sent + [Finished];
      assert loaded[|old(loaded)|] == prog;
    }

    /** The rewritten program of `applyCompensation`, named for loading. */
    method CompensateProgram() returns (prog: LoadedProgram)
      modifies this`probedPoints
      ensures multiset(probedPoints) == multiset(old(probedPoints))
      ensures CompensatedProgram(prog, parseNumber, gcodeFileName, gcode, old(probedPoints))
    {
      var result := RewriteLines(SplitLines(gcode));
      prog := LoadedProgram(AlFileNamePrefix + gcodeFileName, result);
    }

    /** The `forEach` of `applyCompensation` over the lines of the program, from the initial
        modal state. */
    method RewriteLines(lines: seq<string>) returns (result: seq<OutLine>)
      modifies this`probedPoints
      ensures multiset(probedPoints) == multiset(old(probedPoints))
      ensures Realizes(Run(parseNumber, lines).plans, result, old(probedPoints))
    {
      ghost var store := probedPoints;
      var st := Initial;
      result := [];
      ghost var plans: seq<Plan> := [];
      var i := 0;
      while i < |lines|
        invariant 0 <= i <= |lines|
        invariant multiset(probedPoints) == multiset(store)
        invariant Run(parseNumber, lines[..i]) == Stepped2(st, plans)
        invariant Realizes(plans, result, store)
      {
        ghost var before, stBefore := result, st;
        ghost var plan;
        st, result, plan := RewriteLine(st, lines[i], result, store);
        RealizesExtend(plans, before, plan, result, store);
        RunStep(parseNumber, lines, i, stBefore, plans, st, plan);
        plans := plans + [plan];
        i := i + 1;
      }
      assert lines[..i] == lines;
    }
  }
}

=== FILE: geometry.dfy ===
/**
 * The geometry kernel of the autolevel engine: unit conversion, 3D point arithmetic,
 * squared distances and the XY colinearity test (autolevel.js, `Units` and the small
 * helper methods of the `Autolevel` class).
 */
module Geometry {

  /** The two unit systems of `Units` (MILLIMETERS = 1, INCHES = 2). */
  datatype Unit = Millimeters | Inches

  /** Millimetres per inch, the factor used by `Units.convert`. */
  const MillimetersPerInch: real := 25.4

  /** `Units.convert` with both units given. Called with no target unit, `Units.convert`
      returns `undefined`; that case is modelled where it arises, in `SplitToSegments`. */
  function Convert(value: real, from: Unit, to: Unit): real
  {
    if from == to then value
    else if from == Millimeters && to == Inches then value / MillimetersPerInch
    else value * MillimetersPerInch
  }

  lemma ConvertSameUnit(value: real, u: Unit)
    ensures Convert(value, u, u) == value
  {
  }

  /** Converting there and back is exact over the reals, in both directions. */
  lemma ConvertRoundTrip(value: real, a: Unit, b: Unit)
    ensures Convert(Convert(value, a, b), b, a) == value
  {
  }

  /** The conversion is linear, so an offset can be converted separately. */
  lemma ConvertAdditive(v: real, w: real, a: Unit, b: Unit)
    ensures Convert(v + w, a, b) == Convert(v, a, b) + Convert(w, a, b)
  {
  }

  /** A point or a vector; coordinates in millimetres unless a unit says otherwise. */
  datatype Point = Point(x: real, y: real, z: real)

  const Origin: Point := Point(0.0, 0.0, 0.0)

  /** `sub3(p1, p2)`: the vector from p2 to p1. */
  function Sub3(p1: Point, p2: Point): Point
  {
    Point(p1.x - p2.x, p1.y - p2.y, p1.z - p2.z)
  }

  /** The determinant of the XY projections of `u` and `v`: the Z component of `u x v`,
      and the quantity `isColinear` measures. */
  function Det2(u: Point, v: Point): real
  {
    u.x * v.y - u.y * v.x
  }

  /** `crossProduct3(u, v)`. */
  function CrossProduct3(u: Point, v: Point): Point
  {
    Point(u.y * v.z - u.z * v.y, -(u.x * v.z - u.z * v.x), Det2(u, v))
  }

  function Dot3(u: Point, v: Point): real
  {
    u.x * v.x + u.y * v.y + u.z * v.z
  }

  /** `distanceSquared3(p1, p2)`. */
  function DistanceSquared3(p1: Point, p2: Point): real
  {
    (p2.x - p1.x) * (p2.x - p1.x) + (p2.y - p1.y) * (p2.y - p1.y) + (p2.z - p1.z) * (p2.z - p1.z)
  }

  /** `distanceSquared2(p1, p2)`: the squared distance of the XY projections. */
  function DistanceSquared2(p1: Point, p2: Point): real
  {
    (p2.x - p1.x) * (p2.x - p1.x) + (p2.y - p1.y) * (p2.y - p1.y)
  }

  function Abs(r: real): real
  {
    if r < 0.0 then -r else r
  }

  /** The threshold of `isColinear`. */
  const ColinearTolerance: real := 0.00001

  /** `isColinear(u, v)`: the Z component of u x v is below the tolerance in magnitude. */
  predicate IsColinear(u: Point, v: Point)
  {
    Abs(Det2(u, v)) < ColinearTolerance
  }

  /** The cross product is orthogonal to both of its arguments. */
  lemma CrossProductOrthogonal(u: Point, v: Point)
    ensures Dot3(CrossProduct3(u, v), u) == 0.0
    ensures Dot3(CrossProduct3(u, v), v) == 0.0
  {
  }

  /** `isColinear` does not depend on the order of its arguments, and accepts a vector with
      itself, with its opposite and with the zero vector. */
  lemma ColinearBasics(u: Point, v: Point)
    ensures IsColinear(u, v) <==> IsColinear(v, u)
    ensures IsColinear(u, u) && IsColinear(u, Point(-u.x, -u.y, -u.z)) && IsColinear(u, Origin)
  {
    assert Det2(v, u) == -Det2(u, v);
    assert Det2(u, u) == 0.0;
  }

  /** `isColinear` tests exactly the Z component of the cross product: a pair it accepts as
      non-colinear spans a plane that is not vertical. */
  lemma NotColinearMeansCrossZ(u: Point, v: Point)
    ensures IsColinear(u, v) <==> Abs(CrossProduct3(u, v).z) < ColinearTolerance
    ensures !IsColinear(u, v) ==> CrossProduct3(u, v).z != 0.0
  {
    var d := Det2(u, v);
    assert CrossProduct3(u, v).z == d;
    assert Abs(d) >= ColinearTolerance ==> d != 0.0;
  }

  /** `Math.sqrt`, which the model receives as a function parameter: a non-negative root. */
  ghost predicate IsSqrt(sqrt: real -> real)
  {
    forall v: real :: 0.0 <= v ==> 0.0 <= sqrt(v) && sqrt(v) * sqrt(v) == v
  }
}

=== FILE: grid.dfy ===
/**
 * The probe-grid planner of `start` (autolevel.js:137-173): the probing program as a list of
 * commands, and the nested loops that lay the grid over the margin-reduced area.
 */
module Grid {

  /** One line of the probing program. Numbers stay numbers; `toFixed(3)` formatting is
      not modelled. */
  datatype GridCmd =
    | InitialComment                        // (AL: probing initial point)
    | Metric                                // G21
    | Absolute                              // G90
    | Raise(z: real)                        // G0 Z<z>
    | Rapid(x: real, y: real, z: real)      // G0 X<x> Y<y> Z<z>
    | AbsoluteRapid(x: real, y: real, z: real) // G90 G0 X<x> Y<y> Z<z>
    | Probe(depth: real, feed: real)        // G38.2 Z-<depth> F<feed>
    | ZeroZ                                 // G10 L20 P1 Z0
    | PointComment(n: int)                  // (AL: probing point <n>)

  /** An XY probe position. */
  datatype XY = XY(x: real, y: real)

  /** The eight lines that probe the first corner and make it Z zero. */
  function OriginBlock(xmin: real, ymin: real, height: real, feed: real): seq<GridCmd>
  {
    [InitialComment, Metric, Absolute, Raise(height), Rapid(xmin, ymin, height),
     Probe(height + 1.0, feed / 2.0), ZeroZ, Raise(height)]
  }

  /** The four lines that probe grid point number `n` at `p`. */
  function PointBlock(n: int, p: XY, height: real, feed: real): seq<GridCmd>
  {
    [PointComment(n), AbsoluteRapid(p.x, p.y, height), Probe(height, feed), Raise(height)]
  }

  /** The blocks for the grid points `pts`, numbered from 2 (point 1 is the corner). */
  function PointBlocks(pts: seq<XY>, height: real, feed: real): seq<GridCmd>
  {
    if pts == [] then []
    else PointBlocks(pts[..|pts| - 1], height, feed) + PointBlock(|pts| + 1, pts[|pts| - 1], height, feed)
  }

  /** The XY position a command moves to before probing, if any. */
  function TargetOf(c: GridCmd): seq<XY>
  {
    match c
    case Rapid(x, y, _) => [XY(x, y)]
    case AbsoluteRapid(x, y, _) => [XY(x, y)]
    case _ => []
  }

  /** The XY positions the program moves to, in program order. */
  function Targets(code: seq<GridCmd>): seq<XY>
  {
    if code == [] then [] else TargetOf(code[0]) + Targets(code[1..])
  }

  /** The number of `G38.2` probing moves. */
  function ProbeCount(code: seq<GridCmd>): nat
  {
    if code == [] then 0 else (if code[0].Probe? then 1 else 0) + ProbeCount(code[1..])
  }

  lemma TargetsCons(c: GridCmd, rest: seq<GridCmd>)
    ensures Targets([c] + rest) == TargetOf(c) + Targets(rest)
    ensures ProbeCount([c] + rest) == (if c.Probe? then 1 else 0) + ProbeCount(rest)
  {
    assert ([c] + rest)[1..] == rest;
  }

  lemma {:induction false} TargetsAppend(a: seq<GridCmd>, b: seq<GridCmd>)
    ensures Targets(a + b) == Targets(a) + Targets(b)
    ensures ProbeCount(a + b) == ProbeCount(a) + ProbeCount(b)
    decreases |a|
  {
    if a == [] {
      assert a + b == b;
    } else {
      assert (a + b)[1..] == a[1..] + b;
      TargetsAppend(a[1..], b);
    }
  }

  lemma PointBlockTargets(n: int, p: XY, height: real, feed: real)
    ensures Targets(PointBlock(n, p, height, feed)) == [p]
    ensures ProbeCount(PointBlock(n, p, height, feed)) == 1
  {
    var c := [Raise(height)];
    TargetsCons(Raise(height), []);
    TargetsCons(Probe(height, feed), c);
    TargetsCons(AbsoluteRapid(p.x, p.y, height), [Probe(height, feed)] + c);
    TargetsCons(PointComment(n), [AbsoluteRapid(p.x, p.y, height), Probe(height, feed)] + c);
    assert [Raise(height)] + [] == c;
    assert PointBlock(n, p, height, feed)
      == [PointComment(n)] + ([AbsoluteRapid(p.x, p.y, height)] + ([Probe(height, feed)] + c));
  }

  lemma OriginBlockTargets(xmin: real, ymin: real, height: real, feed: real)
    ensures Targets(OriginBlock(xmin, ymin, height, feed)) == [XY(xmin, ymin)]
    ensures ProbeCount(OriginBlock(xmin, ymin, height, feed)) == 1
  {
    var b := OriginBlock(xmin, ymin, height, feed);
    var i := 8;
    while i > 0
      invariant 0 <= i <= 8
      invariant Targets(b[i..]) == (if i <= 4 then [XY(xmin, ymin)] else [])
      invariant ProbeCount(b[i..]) == (if i <= 5 then 1 else 0)
    {
      OriginBlockStep(xmin, ymin, height, feed, i - 1);
      i := i - 1;
    }
    assert b[0..] == b;
  }

  /** One more command of the corner block, counted from its end. */
  lemma OriginBlockStep(xmin: real, ymin: real, height: real, feed: real, k: nat)
    requires k < 8
    ensures var b := OriginBlock(xmin, ymin, height, feed);
      && Targets(b[k..]) == TargetOf(b[k]) + Targets(b[k + 1..])
      && ProbeCount(b[k..]) == (if b[k].Probe? then 1 else 0) + ProbeCount(b[k + 1..])
      && TargetOf(b[k]) == (if k == 4 then [XY(xmin, ymin)] else [])
      && (b[k].Probe? <==> k == 5)
  {
    var b := OriginBlock(xmin, ymin, height, feed);
    TargetsCons(b[k], b[k + 1..]);
    assert b[k..] == [b[k]] + b[k + 1..];
  }

  lemma PointBlocksSnoc(pts: seq<XY>, p: XY, height: real, feed: real)
    ensures PointBlocks(pts + [p], height, feed)
      == PointBlocks(pts, height, feed) + PointBlock(|pts| + 2, p, height, feed)
  {
    assert (pts + [p])[..|pts|] == pts;
  }

  /** Each grid block moves to its point and probes once. */
  lemma {:induction false} TargetsOfPointBlocks(pts: seq<XY>, height: real, feed: real)
    ensures Targets(PointBlocks(pts, height, feed)) == pts
    ensures ProbeCount(PointBlocks(pts, height, feed)) == |pts|
    decreases |pts|
  {
    if pts != [] {
      var front := pts[..|pts| - 1];
      TargetsOfPointBlocks(front, height, feed);
      var block := PointBlock(|pts| + 1, pts[|pts| - 1], height, feed);
      TargetsAppend(PointBlocks(front, height, feed), block);
      PointBlockTargets(|pts| + 1, pts[|pts| - 1], height, feed);
      assert front + [pts[|pts| - 1]] == pts;
    }
  }

  /** A planned program probes once per target: the corner, then each grid point. */
  lemma TargetsOfPlan(xmin: real, ymin: real, height: real, feed: real, pts: seq<XY>)
    ensures Targets(OriginBlock(xmin, ymin, height, feed) + PointBlocks(pts, height, feed))
      == [XY(xmin, ymin)] + pts
    ensures ProbeCount(OriginBlock(xmin, ymin, height, feed) + PointBlocks(pts, height, feed))
      == 1 + |pts|
  {
    var origin := OriginBlock(xmin, ymin, height, feed);
    TargetsAppend(origin, PointBlocks(pts, height, feed));
    TargetsOfPointBlocks(pts, height, feed);
    OriginBlockTargets(xmin, ymin, height, feed);
  }

  /** Raster order: rows ascend in y, and within a row points ascend in x. */
  predicate Before(a: XY, b: XY)
  {
    a.y < b.y || (a.y == b.y && a.x < b.x)
  }

  predicate RasterOrdered(t: seq<XY>)
  {
    forall i :: 0 <= i < |t| - 1 ==> Before(t[i], t[i + 1])
  }

  /** Consecutive order gives the order of any two targets, so no point is probed twice. */
  lemma {:induction false} RasterOrderedStrict(t: seq<XY>, i: nat, j: nat)
    requires RasterOrdered(t) && i < j < |t|
    ensures Before(t[i], t[j])
    ensures t[i] != t[j]
    decreases j - i
  {
    if i + 1 < j {
      RasterOrderedStrict(t, i + 1, j);
    }
  }

  predicate InBounds(t: seq<XY>, xmin: real, xmax: real, ymin: real, ymax: real)
  {
    forall i :: 0 <= i < |t| ==> xmin <= t[i].x <= xmax && ymin <= t[i].y <= ymax
  }

  lemma AppendTarget(t: seq<XY>, p: XY, xmin: real, xmax: real, ymin: real, ymax: real)
    requires InBounds(t, xmin, xmax, ymin, ymax) && RasterOrdered(t)
    requires |t| > 0 ==> Before(t[|t| - 1], p)
    requires xmin <= p.x <= xmax && ymin <= p.y <= ymax
    ensures InBounds(t + [p], xmin, xmax, ymin, ymax) && RasterOrdered(t + [p])
  {
    var u := t + [p];
    forall i | 0 <= i < |u| - 1
      ensures Before(u[i], u[i + 1])
    {
      if i < |t| - 1 {
        assert u[i] == t[i] && u[i + 1] == t[i + 1];
      }
    }
  }

  /** The tolerance of the loop guards of the planner. */
  const GridTolerance: real := 0.01

  /** `parseInt((max - min) / delta)`: how many whole `delta`s fit in the span. */
  function StepCount(span: real, delta: real): (n: int)
    requires 0.0 < delta <= span
    ensures n >= 1 && (n as real) * delta <= span < (n as real + 1.0) * delta
  {
    var q := span / delta;
    assert q * delta == span;
    var n := q.Floor;
    assert n as real <= q < n as real + 1.0;
    MulMonotone(n as real, q, delta);
    MulMonotone(q, n as real + 1.0, delta);
    assert q * delta < (n as real + 1.0) * delta;
    assert span < (n as real + 1.0) * delta;
    n
  }

  lemma MulMonotone(a: real, b: real, c: real)
    requires a <= b && c > 0.0
    ensures a * c <= b * c
    ensures a < b ==> a * c < b * c
  {
  }

  /** The grid spacing: the span cut into `StepCount` equal steps, each at least `delta`. */
  function Spacing(span: real, delta: real): (s: real)
    requires 0.0 < delta <= span
    ensures s >= delta > 0.0
    ensures s * StepCount(span, delta) as real == span
  {
    var n := StepCount(span, delta) as real;
    var d := span / n;
    assert d * n == span;
    assert d * n >= delta * n;
    d
  }

  /** Line `k` of an axis: `lo + k·d`, clamped at `hi` as the loops clamp it. */
  function AxisLine(lo: real, hi: real, d: real, k: int): real
  {
    if lo + k as real * d > hi then hi else lo + k as real * d
  }

  /** The loop of an axis computes line `k` when the line before it lies more than the
      tolerance below `hi`. */
  predicate Reaches(lo: real, hi: real, d: real, k: int)
  {
    lo + (k - 1) as real * d < hi - GridTolerance
  }

  lemma ReachesQuotient(lo: real, hi: real, d: real, k: int)
    requires d > 0.0
    ensures Reaches(lo, hi, d, k) <==> k as real < (hi - GridTolerance - lo) / d + 1.0
  {
    var s := hi - GridTolerance - lo;
    var a := (k - 1) as real;
    assert s / d * d == s;
    if a < s / d {
      MulMonotone(a, s / d, d);
    } else {
      MulMonotone(s / d, a, d);
    }
  }

  /** How many lines the loop of an axis computes: exactly lines 0 to `LineCount - 1`. */
  function LineCount(lo: real, hi: real, d: real): (r: nat)
    requires d > 0.0
    ensures forall k: nat :: Reaches(lo, hi, d, k) <==> k < r
  {
    var q := (hi - GridTolerance - lo) / d + 1.0;
    var r := if q <= 0.0 then 0 else if q.Floor as real == q then q.Floor else q.Floor + 1;
    assert forall k: nat :: Reaches(lo, hi, d, k) <==> k < r by {
      forall k: nat
        ensures Reaches(lo, hi, d, k) <==> k < r
      {
        ReachesQuotient(lo, hi, d, k);
      }
    }
    r
  }

  /** Line `k` is computed from line `k - 1` by one step when that line lies below `hi`. */
  lemma NextLine(lo: real, hi: real, d: real, k: int)
    requires lo + (k - 1) as real * d <= hi
    ensures AxisLine(lo, hi, d, k - 1) + d == lo + k as real * d
    ensures (if lo + k as real * d > hi then hi else lo + k as real * d) == AxisLine(lo, hi, d, k)
  {
    assert (k - 1) as real * d + d == k as real * d;
  }

  /** `v` is line `k` of the axis. (Stated for a bound variable, so that the loops carry it
      without unfolding the product in `AxisLine`.) */
  predicate IsLine(v: real, lo: real, hi: real, d: real, k: int)
  {
    forall m :: m == k ==> v == AxisLine(lo, hi, d, m)
  }

  /** The guard of an axis loop sitting at line `k - 1` holds exactly when the loop reaches
      line `k`. */
  lemma AxisGuard(lo: real, hi: real, d: real, k: int, v: real)
    requires IsLine(v, lo, hi, d, k - 1)
    ensures v < hi - GridTolerance <==> Reaches(lo, hi, d, k)
  {
    assert v == AxisLine(lo, hi, d, k - 1);
  }

  /** One pass of an axis loop: from line `k - 1`, which passes the guard, the loop computes
      line `k`, which lies inside the area and beyond line `k - 1`. */
  lemma AxisStep(lo: real, hi: real, d: real, k: int, v: real)
    requires d > 0.0 && lo <= hi && lo - d <= v && IsLine(v, lo, hi, d, k - 1) && v < hi - GridTolerance
    ensures Reaches(lo, hi, d, k)
    ensures var w := if v + d > hi then hi else v + d;
      && IsLine(w, lo, hi, d, k) && lo <= w <= hi && v < w
  {
    AxisGuard(lo, hi, d, k, v);
    NextLine(lo, hi, d, k);
    assert AxisLine(lo, hi, d, k) == if v + d > hi then hi else v + d;
  }

  /** The first column of the row at height `y`: a row at the corner's height starts one
      step right of the corner, which is already probed. */
  function FirstColumn(ymin: real, y: real): nat
  {
    if y <= ymin + GridTolerance then 1 else 0
  }

  /** Columns `from` up to (not including) `to` of the row at height `y`. */
  function Columns(xmin: real, xmax: real, dx: real, y: real, from: nat, to: nat): (row: seq<XY>)
    ensures |row| == if from <= to then to - from else 0
  {
    seq(if from <= to then to - from else 0, t => XY(AxisLine(xmin, xmax, dx, from + t), y))
  }

  lemma ColumnsSnoc(xmin: real, xmax: real, dx: real, y: real, from: nat, to: nat, x: real)
    requires from <= to && IsLine(x, xmin, xmax, dx, to)
    ensures Columns(xmin, xmax, dx, y, from, to + 1) == Columns(xmin, xmax, dx, y, from, to) + [XY(x, y)]
  {
    assert x == AxisLine(xmin, xmax, dx, to);
  }

  /** The points the row loop probes at height `y`. */
  function Row(xmin: real, xmax: real, dx: real, ymin: real, y: real): seq<XY>
    requires dx > 0.0
  {
    Columns(xmin, xmax, dx, y, FirstColumn(ymin, y), LineCount(xmin, xmax, dx))
  }

  /** The points of the first `n` rows, row after row. */
  function Rows(xmin: real, xmax: real, dx: real, ymin: real, ymax: real, dy: real, n: nat): seq<XY>
    requires dx > 0.0
  {
    if n == 0 then []
    else Rows(xmin, xmax, dx, ymin, ymax, dy, n - 1) + Row(xmin, xmax, dx, ymin, AxisLine(ymin, ymax, dy, n - 1))
  }

  /** One pass of the row loop of the planner: the next row lies at line `j`, which the loop
      reaches, and its points extend the rows planned so far. */
  lemma RowStep(xmin: real, xmax: real, dx: real, ymin: real, ymax: real, dy: real, j: nat, y: real,
                points: seq<XY>)
    requires dx > 0.0 && dy > 0.0 && ymin <= ymax && ymin - dy <= y
    requires IsLine(y, ymin, ymax, dy, j - 1) && y < ymax - GridTolerance
    requires points == Rows(xmin, xmax, dx, ymin, ymax, dy, j)
    ensures var w := if y + dy > ymax then ymax else y + dy;
      IsLine(w, ymin, ymax, dy, j) && ymin <= w <= ymax && y < w && j < LineCount(ymin, ymax, dy)
      && points + Row(xmin, xmax, dx, ymin, w) == Rows(xmin, xmax, dx, ymin, ymax, dy, j + 1)
  {
    AxisStep(ymin, ymax, dy, j, y);
    var w := if y + dy > ymax then ymax else y + dy;
    assert w == AxisLine(ymin, ymax, dy, j);
  }

  /** Every point the planner probes after the corner: point `i` of row `j` is
      `(AxisLine(xmin, xmax, dx, i), AxisLine(ymin, ymax, dy, j))`. */
  function GridPoints(xmin: real, xmax: real, ymin: real, ymax: real, dx: real, dy: real): seq<XY>
    requires dx > 0.0 && dy > 0.0
  {
    Rows(xmin, xmax, dx, ymin, ymax, dy, LineCount(ymin, ymax, dy))
  }

  /** An axis cut into `n` equal steps longer than the tolerance: the loop computes lines
      0 to `n`, none is clamped, and line `n` is the far edge. */
  lemma AxisLines(lo: real, hi: real, d: real, n: nat)
    requires d > GridTolerance && n >= 1 && d * n as real == hi - lo
    ensures LineCount(lo, hi, d) == n + 1
    ensures forall k :: 0 <= k <= n ==> AxisLine(lo, hi, d, k) == lo + k as real * d
    ensures AxisLine(lo, hi, d, n) == hi
  {
    assert (n - 1) as real * d == n as real * d - d;
    assert Reaches(lo, hi, d, n) && !Reaches(lo, hi, d, n + 1);
    forall k | 0 <= k <= n
      ensures AxisLine(lo, hi, d, k) == lo + k as real * d
    {
      MulMonotone(k as real, n as real, d);
    }
  }

  /** With a step longer than the tolerance, the first row holds all but the corner's column
      and every later row all columns. */
  lemma {:induction false} RowsLength(xmin: real, xmax: real, dx: real, ymin: real, ymax: real, dy: real, n: nat)
    requires dx > 0.0 && dy > GridTolerance && ymax - ymin > GridTolerance
    requires LineCount(xmin, xmax, dx) >= 1 && n >= 1
    ensures |Rows(xmin, xmax, dx, ymin, ymax, dy, n)| == n * LineCount(xmin, xmax, dx) - 1
  {
    var c := LineCount(xmin, xmax, dx);
    var y := AxisLine(ymin, ymax, dy, n - 1);
    if n == 1 {
      assert y == ymin;
    } else {
      RowsLength(xmin, xmax, dx, ymin, ymax, dy, n - 1);
      MulMonotone(1.0, (n - 1) as real, dy);
      assert y > ymin + GridTolerance;
      assert (n - 1) * c + c == n * c;
    }
  }

  /** With a step longer than the tolerance the grid has `StepCount + 1` lines each way, the
      last on the far edge, so the program probes their product of points, corner included. */
  lemma GridPointCount(xmin: real, xmax: real, ymin: real, ymax: real, delta: real)
    requires GridTolerance < delta <= xmax - xmin && delta <= ymax - ymin
    ensures var dx := Spacing(xmax - xmin, delta);
      && LineCount(xmin, xmax, dx) == StepCount(xmax - xmin, delta) + 1
      && AxisLine(xmin, xmax, dx, StepCount(xmax - xmin, delta)) == xmax
    ensures var dy := Spacing(ymax - ymin, delta);
      && LineCount(ymin, ymax, dy) == StepCount(ymax - ymin, delta) + 1
      && AxisLine(ymin, ymax, dy, StepCount(ymax - ymin, delta)) == ymax
    ensures 1 + |GridPoints(xmin, xmax, ymin, ymax, Spacing(xmax - xmin, delta), Spacing(ymax - ymin, delta))|
      == (StepCount(xmax - xmin, delta) + 1) * (StepCount(ymax - ymin, delta) + 1)
  {
    var nx, ny := StepCount(xmax - xmin, delta), StepCount(ymax - ymin, delta);
    var dx, dy := Spacing(xmax - xmin, delta), Spacing(ymax - ymin, delta);
    AxisLines(xmin, xmax, dx, nx);
    AxisLines(ymin, ymax, dy, ny);
    RowsLength(xmin, xmax, dx, ymin, ymax, dy, ny + 1);
    var rows := Rows(xmin, xmax, dx, ymin, ymax, dy, ny + 1);
    assert GridPoints(xmin, xmax, ymin, ymax, dx, dy) == rows;
    assert |rows| == (ny + 1) * (nx + 1) - 1;
    assert (ny + 1) * (nx + 1) == (nx + 1) * (ny + 1);
  }

  /** What the planner promises about a probing program `code` announcing `count` points:
      the corner block, then one numbered block per grid point, the grid points being those
      of `GridPoints` for the spacings of `delta`; one probe per target; every target inside
      the area; targets in strict raster order. */
  predicate GridPlanned(code: seq<GridCmd>, count: nat, xmin: real, xmax: real, ymin: real, ymax: real,
                        delta: real, height: real, feed: real)
  {
    && 0.0 < delta <= xmax - xmin && delta <= ymax - ymin
    && count == ProbeCount(code) == |Targets(code)| >= 1
    && code == OriginBlock(xmin, ymin, height, feed) + PointBlocks(Targets(code)[1..], height, feed)
    && Targets(code)[0] == XY(xmin, ymin)
    && Targets(code)[1..] == GridPoints(xmin, xmax, ymin, ymax, Spacing(xmax - xmin, delta), Spacing(ymax - ymin, delta))
    && InBounds(Targets(code), xmin, xmax, ymin, ymax)
    && RasterOrdered(Targets(code))
  }

  /** The program the loops have built once they have planned the grid points `points`.
      (The targets are named by a bound variable so that their order is only unfolded where
      a proof asks about it.) */
  predicate Planned(code: seq<GridCmd>, count: nat, points: seq<XY>,
                    xmin: real, xmax: real, ymin: real, ymax: real, height: real, feed: real)
  {
    && count == 1 + |points|
    && code == OriginBlock(xmin, ymin, height, feed) + PointBlocks(points, height, feed)
    && forall targets :: targets == [XY(xmin, ymin)] + points ==>
         InBounds(targets, xmin, xmax, ymin, ymax) && RasterOrdered(targets)
  }

  /** The last position probed so far. */
  function LastTarget(xmin: real, ymin: real, points: seq<XY>): XY
  {
    if points == [] then XY(xmin, ymin) else points[|points| - 1]
  }

  /** Probing one more point after the last one, in raster order and inside the area. */
  lemma PlannedSnoc(code: seq<GridCmd>, count: nat, points: seq<XY>, p: XY,
                    xmin: real, xmax: real, ymin: real, ymax: real, height: real, feed: real)
    requires Planned(code, count, points, xmin, xmax, ymin, ymax, height, feed)
    requires Before(LastTarget(xmin, ymin, points), p)
    requires xmin <= p.x <= xmax && ymin <= p.y <= ymax
    ensures Planned(code + PointBlock(count + 1, p, height, feed), count + 1, points + [p],
                    xmin, xmax, ymin, ymax, height, feed)
    ensures LastTarget(xmin, ymin, points + [p]) == p
  {
    var targets := [XY(xmin, ymin)] + points;
    assert targets[|targets| - 1] == LastTarget(xmin, ymin, points);
    AppendTarget(targets, p, xmin, xmax, ymin, ymax);
    PointBlocksSnoc(points, p, height, feed);
    assert targets + [p] == [XY(xmin, ymin)] + (points + [p]);
  }

  /** Once the loops have planned every grid point, the program is the one `GridPlanned`
      describes, and with a step longer than the tolerance it probes `StepCount + 1` points
      each way. */
  lemma PlannedGrid(code: seq<GridCmd>, count: nat, points: seq<XY>,
                    xmin: real, xmax: real, ymin: real, ymax: real, delta: real, height: real, feed: real)
    requires 0.0 < delta <= xmax - xmin && delta <= ymax - ymin
    requires Planned(code, count, points, xmin, xmax, ymin, ymax, height, feed)
    requires points == GridPoints(xmin, xmax, ymin, ymax, Spacing(xmax - xmin, delta), Spacing(ymax - ymin, delta))
    ensures GridPlanned(code, count, xmin, xmax, ymin, ymax, delta, height, feed)
    ensures delta > GridTolerance ==>
      count == (StepCount(xmax - xmin, delta) + 1) * (StepCount(ymax - ymin, delta) + 1)
  {
    TargetsOfPlan(xmin, ymin, height, feed, points);
    assert Targets(code)[1..] == points;
    if delta > GridTolerance {
      GridPointCount(xmin, xmax, ymin, ymax, delta);
    }
  }

  /** The row loop of `start` at height `y`: appends the blocks of the row's points. */
  method PlanRow(xmin: real, xmax: real, dx: real, ymin: real, ymax: real, y: real, height: real, feed: real,
                 code0: seq<GridCmd>, count0: nat, ghost points0: seq<XY>)
    returns (code: seq<GridCmd>, count: nat, ghost points: seq<XY>)
    requires dx > 0.0 && xmin < xmax && ymin <= y <= ymax
    requires Planned(code0, count0, points0, xmin, xmax, ymin, ymax, height, feed)
    requires LastTarget(xmin, ymin, points0).y < y || LastTarget(xmin, ymin, points0) == XY(xmin, ymin)
    ensures points == points0 + Row(xmin, xmax, dx, ymin, y)
    ensures Planned(code, count, points, xmin, xmax, ymin, ymax, height, feed)
    ensures LastTarget(xmin, ymin, points).y <= y || LastTarget(xmin, ymin, points) == XY(xmin, ymin)
  {
    code, count, points := code0, count0, points0;
    ghost var first := FirstColumn(ymin, y);
    ghost var i: nat := first;
    var x := xmin - dx;
    if y <= ymin + GridTolerance {
      x := xmin;
    }
    while x < xmax - GridTolerance
      invariant xmin - dx <= x
      invariant first <= i && (i == first || i <= LineCount(xmin, xmax, dx))
      invariant IsLine(x, xmin, xmax, dx, i - 1)
      invariant points == points0 + Columns(xmin, xmax, dx, y, first, i)
      invariant Planned(code, count, points, xmin, xmax, ymin, ymax, height, feed)
      invariant LastTarget(xmin, ymin, points).y < y || LastTarget(xmin, ymin, points) == XY(x, y)
      decreases LineCount(xmin, xmax, dx) - i
    {
      AxisStep(xmin, xmax, dx, i, x);
      x := x + dx;
      if x > xmax {
        x := xmax;
      }
      var p := XY(x, y);
      PlannedSnoc(code, count, points, p, xmin, xmax, ymin, ymax, height, feed);
      ColumnsSnoc(xmin, xmax, dx, y, first, i, x);
      code := code + PointBlock(count + 1, p, height, feed);
      count := count + 1;
      points := points + [p];
      i := i + 1;
    }
    AxisGuard(xmin, xmax, dx, i, x);
  }

  /** The grid loops of `start`. The spacing is the span divided by the span over `delta`
      truncated to an integer (`parseInt`), so the span must hold at least one `delta`.
      Returns the program and the number of planned probe points. */
  method PlanGrid(xmin: real, xmax: real, ymin: real, ymax: real, delta: real, height: real, feed: real)
    returns (code: seq<GridCmd>, count: nat)
    requires 0.0 < delta <= xmax - xmin && delta <= ymax - ymin
    ensures GridPlanned(code, count, xmin, xmax, ymin, ymax, delta, height, feed)
    ensures delta > GridTolerance ==>
      count == (StepCount(xmax - xmin, delta) + 1) * (StepCount(ymax - ymin, delta) + 1)
  {
    var dx := Spacing(xmax - xmin, delta);
    var dy := Spacing(ymax - ymin, delta);
    code := OriginBlock(xmin, ymin, height, feed);
    count := 1;
    ghost var points: seq<XY> := [];
    ghost var j: nat := 0;

    var y := ymin - dy;
    while y < ymax - GridTolerance
      invariant ymin - dy <= y
      invariant j <= LineCount(ymin, ymax, dy)
      invariant IsLine(y, ymin, ymax, dy, j - 1)
      invariant points == Rows(xmin, xmax, dx, ymin, ymax, dy, j)
      invariant Planned(code, count, points, xmin, xmax, ymin, ymax, height, feed)
      invariant LastTarget(xmin, ymin, points).y <= y || LastTarget(xmin, ymin, points) == XY(xmin, ymin)
      decreases LineCount(ymin, ymax, dy) - j
    {
      RowStep(xmin, xmax, dx, ymin, ymax, dy, j, y, points);
      y := y + dy;
      if y > ymax {
        y := ymax;
      }
      code, count, points := PlanRow(xmin, xmax, dx, ymin, ymax, y, height, feed, code, count, points);
      j := j + 1;
    }
    AxisGuard(ymin, ymax, dy, j, y);
    PlannedGrid(code, count, points, xmin, xmax, ymin, ymax, delta, height, feed);
  }
}

=== FILE: rewrite.dfy ===
/**
 * The per-line state machine of `applyCompensation` (autolevel.js:299-376) as a
 * specification: what each line of the loaded program turns into, and the modal state
 * (`abs`, `units`, `p0`, `pt`, `p0_initialized`) carried from one line to the next. The
 * loop that executes it is `Autolevel.ApplyCompensation`.
 */
module Rewrite {
  import opened Wrappers
  import opened Geometry
  import opened GcodeText
  import opened Surface

  /** The variables `applyCompensation` carries across lines. */
  datatype ModalState = ModalState(absolute: bool, units: Unit, p0: Point, pt: Point, p0Initialized: bool)

  /** Their values before the first line. */
  const Initial: ModalState := ModalState(true, Millimeters, Origin, Origin, false)

  /** What one input line becomes: the stripped line copied as it is, or the stripped
      command without its coordinates placed at each of `points` (in `units`) after
      compensation. */
  datatype Plan =
    | Copy(text: string)
    | Place(prefix: string, points: seq<Point>, units: Unit)

  /** One line of the compensated program: copied text, or a command prefix followed by the
      compensated X, Y and Z and a comment holding the uncompensated Z. Numbers are not
      formatted. */
  datatype OutLine =
    | Text(text: string)
    | Moved(prefix: string, at: Point, originalZ: real)

  datatype Stepped = Stepped(state: ModalState, plan: Plan)

  /** The value of one axis after a coordinate line: the parsed number of its word, or the
      previous value when the line has none. */
  function AxisValue(parse: string -> real, s: string, axis: char, previous: real): real
  {
    match CoordinateWord(s, axis)
    case Some(w) => parse(w)
    case None => previous
  }

  /** `pt` after reading the X, Y and Z words of `s`. */
  function NextPoint(parse: string -> real, s: string, pt: Point): Point
  {
    Point(AxisValue(parse, s, 'X', pt.x), AxisValue(parse, s, 'Y', pt.y), AxisValue(parse, s, 'Z', pt.z))
  }

  /** The distance mode after a line: G91 selects relative, then G90 absolute. */
  function NextAbsolute(s: string, absolute: bool): bool
  {
    if Contains(s, "G90") then true else if Contains(s, "G91") then false else absolute
  }

  /** The units after a line: G20 selects inches, then G21 millimetres. */
  function NextUnits(s: string, units: Unit): Unit
  {
    if Contains(s, "G21") then Millimeters else if Contains(s, "G20") then Inches else units
  }

  /** The body of the `forEach` of `applyCompensation` for one line. Segment splitting is
      called without units there, so a move from `p0` to `pt` always yields just its two
      end points (see `Autolevel.SplitToSegments`). */
  function Step(parse: string -> real, st: ModalState, line: string): Stepped
  {
    var s := StripComments(line);
    if IsPassThrough(s) then Stepped(st, Copy(s))
    else
      var modal := st.(absolute := NextAbsolute(s, st.absolute), units := NextUnits(s, st.units));
      if !HasAxisLetter(s) then Stepped(modal, Copy(s))
      else
        var pt := NextPoint(parse, s, st.pt);
        var moved := modal.(pt := pt, p0 := pt);
        if !modal.absolute then Stepped(moved, Copy(s))
        else if st.p0Initialized then Stepped(moved, Place(StripCoordinates(s), [st.p0, pt], modal.units))
        else Stepped(moved.(p0Initialized := true), Place(StripCoordinates(s), [pt], modal.units))
  }

  /** The state after the lines and the plan of each line, in order. */
  function Run(parse: string -> real, lines: seq<string>): (r: Stepped2)
    ensures |r.plans| == |lines|
  {
    if lines == [] then Stepped2(Initial, [])
    else
      var before := Run(parse, lines[..|lines| - 1]);
      var step := Step(parse, before.state, lines[|lines| - 1]);
      Stepped2(step.state, before.plans + [step.plan])
  }

  datatype Stepped2 = Stepped2(state: ModalState, plans: seq<Plan>)

  /** Running one more line of `lines` steps from the state the earlier lines left and
      appends the plan of that line. */
  lemma RunStep(parse: string -> real, lines: seq<string>, i: nat, st: ModalState, plans: seq<Plan>,
                st': ModalState, plan: Plan)
    requires i < |lines|
    requires Run(parse, lines[..i]) == Stepped2(st, plans)
    requires Step(parse, st, lines[i]) == Stepped(st', plan)
    ensures Run(parse, lines[..i + 1]) == Stepped2(st', plans + [plan])
  {
    assert lines[..i + 1][..i] == lines[..i];
  }

  // ---------------------------------------------------------------- realisation

  /** How many output lines a plan produces. */
  function OutCount(p: Plan): nat
  {
    match p
    case Copy(_) => 1
    case Place(_, points, _) => |points|
  }

  /** `outs` are the output lines of one plan, compensated against the probed points `store`. */
  ghost predicate RealizesOne(p: Plan, outs: seq<OutLine>, store: seq<Point>)
  {
    match p
    case Copy(t) => outs == [Text(t)]
    case Place(prefix, points, units) =>
      |outs| == |points|
      && (forall i :: 0 <= i < |outs| ==>
            outs[i].Moved? && outs[i].prefix == prefix && outs[i].originalZ == points[i].z)
      && (forall i {:trigger Compensates(store, points[i], units, outs[i].at)} :: 0 <= i < |outs| ==>
            outs[i].Moved? && Compensates(store, points[i], units, outs[i].at))
  }

  /** One compensated point is placed by its output line. */
  lemma PlaceOne(prefix: string, p: Point, units: Unit, c: Point, store: seq<Point>)
    requires Compensates(store, p, units, c)
    ensures RealizesOne(Place(prefix, [p], units), [Moved(prefix, c, p.z)], store)
  {
  }

  /** Placing the next point of `points` adds its output line. */
  lemma PlaceNext(prefix: string, points: seq<Point>, i: nat, units: Unit, outs: seq<OutLine>,
                  store: seq<Point>, out: OutLine)
    requires i < |points|
    requires RealizesOne(Place(prefix, points[..i], units), outs, store)
    requires RealizesOne(Place(prefix, [points[i]], units), [out], store)
    ensures RealizesOne(Place(prefix, points[..i + 1], units), outs + [out], store)
  {
    var outs' := outs + [out];
    var points' := points[..i + 1];
    forall k | 0 <= k < |outs'|
      ensures outs'[k].Moved? && outs'[k].prefix == prefix && outs'[k].originalZ == points'[k].z
      ensures Compensates(store, points'[k], units, outs'[k].at)
    {
      if k < |outs| {
        assert outs'[k] == outs[k] && points'[k] == points[..i][k];
        assert Compensates(store, points[..i][k], units, outs[k].at);
      } else {
        assert outs'[k] == [out][0] && points'[k] == [points[i]][0];
        assert Compensates(store, [points[i]][0], units, [out][0].at);
      }
    }
  }

  /** `outs` are the output lines of all `plans`, in order. */
  ghost predicate Realizes(plans: seq<Plan>, outs: seq<OutLine>, store: seq<Point>)
    decreases |plans|
  {
    if plans == [] then outs == []
    else
      var k := OutCount(plans[|plans| - 1]);
      k <= |outs| && Realizes(plans[..|plans| - 1], outs[..|outs| - k], store)
      && RealizesOne(plans[|plans| - 1], outs[|outs| - k..], store)
  }

  lemma RealizesAppend(plans: seq<Plan>, outs: seq<OutLine>, p: Plan, more: seq<OutLine>, store: seq<Point>)
    requires Realizes(plans, outs, store) && RealizesOne(p, more, store)
    ensures Realizes(plans + [p], outs + more, store)
  {
    var all := outs + more;
    assert (plans + [p])[..|plans|] == plans;
    assert |more| == OutCount(p);
    assert all[..|all| - |more|] == outs;
    assert all[|all| - |more|..] == more;
  }

  /** Output lines that extend `outs` by the lines of one more plan realize the longer plan. */
  lemma RealizesExtend(plans: seq<Plan>, outs: seq<OutLine>, p: Plan, result: seq<OutLine>, store: seq<Point>)
    requires Realizes(plans, outs, store)
    requires |result| >= |outs| && result[..|outs|] == outs
    requires RealizesOne(p, result[|outs|..], store)
    ensures Realizes(plans + [p], result, store)
  {
    assert result == outs + result[|outs|..];
    RealizesAppend(plans, outs, p, result[|outs|..], store);
  }

  // ---------------------------------------------------------------- properties

  /** Pass-through lines are copied stripped and leave the whole modal state alone. */
  lemma PassThroughUntouched(parse: string -> real, st: ModalState, line: string)
    requires IsPassThrough(StripComments(line))
    ensures Step(parse, st, line) == Stepped(st, Copy(StripComments(line)))
  {
  }

  /** Modal words on a line that is not passed through: G90 beats G91 and G21 beats G20
      because they are tested later; without either word of a pair the mode carries over. */
  lemma ModalFlags(parse: string -> real, st: ModalState, line: string)
    requires !IsPassThrough(StripComments(line))
    ensures var s := StripComments(line); var a := Step(parse, st, line).state;
      (Contains(s, "G90") ==> a.absolute)
      && (Contains(s, "G91") && !Contains(s, "G90") ==> !a.absolute)
      && (!Contains(s, "G91") && !Contains(s, "G90") ==> a.absolute == st.absolute)
      && (Contains(s, "G21") ==> a.units == Millimeters)
      && (Contains(s, "G20") && !Contains(s, "G21") ==> a.units == Inches)
      && (!Contains(s, "G20") && !Contains(s, "G21") ==> a.units == st.units)
  {
  }

  /** A line without X, Y or Z is copied stripped and keeps the previous and current points. */
  lemma NoCoordinatesCopied(parse: string -> real, st: ModalState, line: string)
    requires !HasAxisLetter(StripComments(line))
    ensures Step(parse, st, line).plan == Copy(StripComments(line))
    ensures Step(parse, st, line).state.p0 == st.p0 && Step(parse, st, line).state.pt == st.pt
    ensures Step(parse, st, line).state.p0Initialized == st.p0Initialized
  {
  }

  /** In relative mode a coordinate line is copied stripped, without compensation. */
  lemma RelativeCopied(parse: string -> real, st: ModalState, line: string)
    requires !IsPassThrough(StripComments(line)) && HasAxisLetter(StripComments(line))
    requires !NextAbsolute(StripComments(line), st.absolute)
    ensures Step(parse, st, line).plan == Copy(StripComments(line))
  {
  }

  /** The first absolute coordinate line yields one point and marks the previous point set;
      every later one yields the move from the previous point to the new one. Either way
      the coordinate words are gone from the prefix. */
  lemma AbsoluteMoves(parse: string -> real, st: ModalState, line: string)
    requires !IsPassThrough(StripComments(line)) && HasAxisLetter(StripComments(line))
    requires NextAbsolute(StripComments(line), st.absolute)
    ensures var s := StripComments(line); var r := Step(parse, st, line);
      r.plan.Place? && r.plan.prefix == StripCoordinates(s) && r.state.p0Initialized
      && r.plan.units == NextUnits(s, st.units)
      && r.plan.points == (if st.p0Initialized then [st.p0, r.state.pt] else [r.state.pt])
    ensures var prefix := Step(parse, st, line).plan.prefix;
      CoordinateWord(prefix, 'X') == None && CoordinateWord(prefix, 'Y') == None
      && CoordinateWord(prefix, 'Z') == None
  {
    StrippedLineHasNoCoordinates(StripComments(line));
  }

  /** After a coordinate line, in either mode, the previous point is the new current point. */
  lemma CoordinateLineMovesP0(parse: string -> real, st: ModalState, line: string)
    requires !IsPassThrough(StripComments(line)) && HasAxisLetter(StripComments(line))
    ensures Step(parse, st, line).state.p0 == Step(parse, st, line).state.pt
      == NextPoint(parse, StripComments(line), st.pt)
  {
  }

  /** Between lines `p0` and `pt` agree, so every compensated move starts where the last
      coordinate line ended. */
  lemma {:induction false} RunKeepsP0AtPt(parse: string -> real, lines: seq<string>)
    ensures Run(parse, lines).state.p0 == Run(parse, lines).state.pt
    decreases |lines|
  {
    if lines != [] {
      RunKeepsP0AtPt(parse, lines[..|lines| - 1]);
    }
  }

  /** Every plan produces one or two output lines. */
  lemma StepOutCount(parse: string -> real, st: ModalState, line: string)
    ensures 1 <= OutCount(Step(parse, st, line).plan) <= 2
  {
  }

  /** Each plan of a run yields at least one output line. */
  lemma {:induction false} RunOutCounts(parse: string -> real, lines: seq<string>)
    ensures forall i :: 0 <= i < |lines| ==> 1 <= OutCount(Run(parse, lines).plans[i]) <= 2
    decreases |lines|
  {
    if lines != [] {
      var front := lines[..|lines| - 1];
      RunOutCounts(parse, front);
      var before := Run(parse, front);
      StepOutCount(parse, before.state, lines[|lines| - 1]);
    }
  }

  /** Realised plans never produce fewer lines than there are plans. */
  lemma {:induction false} RealizesAtLeastOnePerPlan(plans: seq<Plan>, outs: seq<OutLine>, store: seq<Point>)
    requires forall i :: 0 <= i < |plans| ==> 1 <= OutCount(plans[i])
    requires Realizes(plans, outs, store)
    ensures |outs| >= |plans|
    decreases |plans|
  {
    if plans != [] {
      var k := OutCount(plans[|plans| - 1]);
      RealizesAtLeastOnePerPlan(plans[..|plans| - 1], outs[..|outs| - k], store);
    }
  }

  /** Every input line yields at least one output line. */
  lemma OutputCoversInput(parse: string -> real, lines: seq<string>, outs: seq<OutLine>, store: seq<Point>)
    requires Realizes(Run(parse, lines).plans, outs, store)
    ensures |outs| >= |lines|
  {
    RunOutCounts(parse, lines);
    RealizesAtLeastOnePerPlan(Run(parse, lines).plans, outs, store);
  }
}

=== FILE: surface.dfy ===
/**
 * The surface model of the autolevel engine: the order in which `getThreeClosestPoints`
 * sorts the probed points, the three neighbours it picks, the plane through them, and the
 * Z compensation of `compensateZCoord` (autolevel.js:247-297), with the running Z sum of
 * the probe-reply handler.
 */
module Surface {
  import opened Geometry

  // ---------------------------------------------------------------- sorting

  /** The order produced by the comparator of `getThreeClosestPoints`: ascending XY distance
      to `q`. The comparator never answers 0, so equidistant points may come in any order. */
  predicate SortedByDistance(s: seq<Point>, q: Point)
  {
    forall i, j :: 0 <= i < j < |s| ==> DistanceSquared2(s[i], q) <= DistanceSquared2(s[j], q)
  }

  /** Inserting `p` where the distances pass its own keeps the order. */
  lemma InsertKeepsSorted(r: seq<Point>, p: Point, q: Point, pos: nat)
    requires SortedByDistance(r, q) && pos <= |r|
    requires forall k :: 0 <= k < pos ==> DistanceSquared2(r[k], q) <= DistanceSquared2(p, q)
    requires pos < |r| ==> DistanceSquared2(p, q) < DistanceSquared2(r[pos], q)
    ensures SortedByDistance(r[..pos] + [p] + r[pos..], q)
  {
    var t := r[..pos] + [p] + r[pos..];
    forall i, j | 0 <= i < j < |t|
      ensures DistanceSquared2(t[i], q) <= DistanceSquared2(t[j], q)
    {
      if j < pos {
        assert t[i] == r[i] && t[j] == r[j];
      } else if j == pos {
        assert t[i] == r[i] && t[j] == p;
      } else if i < pos {
        assert t[i] == r[i] && t[j] == r[j - 1];
      } else if i == pos {
        assert t[i] == p && t[j] == r[j - 1];
        assert DistanceSquared2(r[pos], q) <= DistanceSquared2(r[j - 1], q);
      } else {
        assert t[i] == r[i - 1] && t[j] == r[j - 1];
      }
    }
  }

  /** Inserting `p` at `pos` adds it to the points of `r`. */
  lemma InsertMultiset(r: seq<Point>, p: Point, pos: nat)
    requires pos <= |r|
    ensures multiset(r[..pos] + [p] + r[pos..]) == multiset(r) + multiset{p}
  {
    assert r == r[..pos] + r[pos..];
  }

  /** One pass of the insertion sort: inserting `s[i]` at its place in the sorted points
      of `s[..i]` gives the sorted points of `s[..i + 1]`. */
  lemma InsertStep(s: seq<Point>, i: nat, r: seq<Point>, q: Point, pos: nat)
    requires i < |s| && multiset(r) == multiset(s[..i]) && SortedByDistance(r, q) && pos <= |r|
    requires forall k :: 0 <= k < pos ==> DistanceSquared2(r[k], q) <= DistanceSquared2(s[i], q)
    requires pos < |r| ==> DistanceSquared2(s[i], q) < DistanceSquared2(r[pos], q)
    ensures multiset(r[..pos] + [s[i]] + r[pos..]) == multiset(s[..i + 1])
    ensures SortedByDistance(r[..pos] + [s[i]] + r[pos..], q)
  {
    InsertKeepsSorted(r, s[i], q, pos);
    InsertMultiset(r, s[i], pos);
    assert s[..i + 1] == s[..i] + [s[i]];
  }

  /** Where an insertion sort puts a point at distance `d`: behind every point no farther
      away, in front of the first point farther away. */
  method InsertionPoint(r: seq<Point>, q: Point, d: real) returns (pos: nat)
    ensures pos <= |r|
    ensures forall k :: 0 <= k < pos ==> DistanceSquared2(r[k], q) <= d
    ensures pos < |r| ==> d < DistanceSquared2(r[pos], q)
  {
    pos := 0;
    while pos < |r| && DistanceSquared2(r[pos], q) <= d
      invariant 0 <= pos <= |r|
      invariant forall k :: 0 <= k < pos ==> DistanceSquared2(r[k], q) <= d
    {
      pos := pos + 1;
    }
  }

  /** `Array.prototype.sort` with the comparator of `getThreeClosestPoints`, as an insertion
      sort: a permutation of `s` in ascending XY distance to `q`. */
  method SortByDistance(s: seq<Point>, q: Point) returns (r: seq<Point>)
    ensures multiset(r) == multiset(s)
    ensures SortedByDistance(r, q)
  {
    r := [];
    var i := 0;
    while i < |s|
      invariant 0 <= i <= |s|
      invariant multiset(r) == multiset(s[..i])
      invariant SortedByDistance(r, q)
    {
      var p := s[i];
      var pos := InsertionPoint(r, q, DistanceSquared2(p, q));
      InsertStep(s, i, r, q, pos);
      r := r[..pos] + [p] + r[pos..];
      i := i + 1;
    }
    assert s[..i] == s;
  }

  // ---------------------------------------------------------------- three closest points

  /** The test of `getThreeClosestPoints` against the first two picks `a` and `b`. */
  predicate Colinear3(a: Point, b: Point, p: Point)
  {
    IsColinear(Sub3(b, a), Sub3(p, a))
  }

  /** Index of the first point of `rest` that is not colinear with `a` and `b`, or `|rest|`. */
  function FirstNonColinear(a: Point, b: Point, rest: seq<Point>): (k: nat)
    ensures k <= |rest|
    ensures k < |rest| ==> !Colinear3(a, b, rest[k])
    ensures forall j :: 0 <= j < k ==> Colinear3(a, b, rest[j])
  {
    if rest == [] || !Colinear3(a, b, rest[0]) then 0 else 1 + FirstNonColinear(a, b, rest[1..])
  }

  /** What `getThreeClosestPoints` returns once the store is sorted: nothing with fewer than
      three points, else the two nearest and, when there is one, the nearest later point
      that is not colinear with them. */
  function ThreeClosest(sorted: seq<Point>): seq<Point>
  {
    if |sorted| < 3 then []
    else
      var k := FirstNonColinear(sorted[0], sorted[1], sorted[2..]);
      if k < |sorted| - 2 then [sorted[0], sorted[1], sorted[2 + k]] else [sorted[0], sorted[1]]
  }

  lemma ThreeClosestShape(sorted: seq<Point>)
    ensures |sorted| < 3 <==> ThreeClosest(sorted) == []
    ensures |sorted| >= 3 ==>
      (2 <= |ThreeClosest(sorted)| <= 3
       && ThreeClosest(sorted)[0] == sorted[0] && ThreeClosest(sorted)[1] == sorted[1])
    ensures |ThreeClosest(sorted)| == 3 <==>
      |sorted| >= 3 && exists j :: 2 <= j < |sorted| && !Colinear3(sorted[0], sorted[1], sorted[j])
    ensures |ThreeClosest(sorted)| == 3 ==>
      exists j :: 2 <= j < |sorted| && ThreeClosest(sorted)[2] == sorted[j]
        && !Colinear3(sorted[0], sorted[1], sorted[j])
        && forall i :: 2 <= i < j ==> Colinear3(sorted[0], sorted[1], sorted[i])
  {
    if |sorted| >= 3 {
      var rest := sorted[2..];
      var k := FirstNonColinear(sorted[0], sorted[1], rest);
      if k < |rest| {
        assert rest[k] == sorted[2 + k];
        forall i | 2 <= i < 2 + k
          ensures Colinear3(sorted[0], sorted[1], sorted[i])
        {
          assert rest[i - 2] == sorted[i];
        }
      } else {
        forall j | 2 <= j < |sorted|
          ensures Colinear3(sorted[0], sorted[1], sorted[j])
        {
          assert rest[j - 2] == sorted[j];
        }
      }
    }
  }

  /** `normal` of `compensateZCoord`: the cross product of the two edges from the first point. */
  function Normal(pts: seq<Point>): Point
    requires |pts| == 3
  {
    CrossProduct3(Sub3(pts[1], pts[0]), Sub3(pts[2], pts[0]))
  }

  /** The colinearity test already rejected every third point whose normal has a Z part below
      the tolerance, so the `normal.z == 0` branch of `compensateZCoord` is never taken. */
  lemma ChosenPlaneIsNotVertical(sorted: seq<Point>)
    requires |ThreeClosest(sorted)| == 3
    ensures Abs(Normal(ThreeClosest(sorted)).z) >= ColinearTolerance
    ensures Normal(ThreeClosest(sorted)).z != 0.0
  {
    var pts := ThreeClosest(sorted);
    ThreeClosestShape(sorted);
    NotColinearMeansCrossZ(Sub3(pts[1], pts[0]), Sub3(pts[2], pts[0]));
  }

  // ---------------------------------------------------------------- plane and compensation

  /** `dz` of `compensateZCoord`: the height at the XY position of `q` of the plane through
      the three points, or 0 when the normal has no Z part. */
  function PlaneHeight(pts: seq<Point>, q: Point): real
    requires |pts| == 3
  {
    var n := Normal(pts);
    var pp := pts[0];
    if n.z != 0.0 then pp.z - (n.x * (q.x - pp.x) + n.y * (q.y - pp.y)) / n.z else 0.0
  }

  /** Only unfolds the definition of `PlaneHeight` in its `n.z != 0` branch, with the normal
      and the base point named, as `compensateZCoord` evaluates it inline. It states no
      property of its own; proving this step in a separate, small context keeps
      `CompensateZCoord` cheap for the verifier. */
  lemma PlaneHeightUnfold(pts: seq<Point>, q: Point, n: Point, pp: Point)
    requires |pts| == 3 && n == Normal(pts) && pp == pts[0] && n.z != 0.0
    ensures PlaneHeight(pts, q) == pp.z - (n.x * (q.x - pp.x) + n.y * (q.y - pp.y)) / n.z
  {
  }

  /** Height of the plane through `pts` at a point `p` with `n . (p - pts[0]) == 0`. */
  lemma PlaneHeightOnPlane(pts: seq<Point>, p: Point)
    requires |pts| == 3 && Normal(pts).z != 0.0
    requires Dot3(Normal(pts), Sub3(p, pts[0])) == 0.0
    ensures PlaneHeight(pts, p) == p.z
  {
    var n := Normal(pts);
    var a := pts[0];
    var lin := n.x * (p.x - a.x) + n.y * (p.y - a.y);
    assert lin == -(n.z * (p.z - a.z));
    assert lin / n.z == -(p.z - a.z);
  }

  /** The plane passes through all three chosen points. */
  lemma PlaneThroughChosenPoints(pts: seq<Point>)
    requires |pts| == 3 && Normal(pts).z != 0.0
    ensures PlaneHeight(pts, pts[0]) == pts[0].z
    ensures PlaneHeight(pts, pts[1]) == pts[1].z
    ensures PlaneHeight(pts, pts[2]) == pts[2].z
  {
    var u := Sub3(pts[1], pts[0]);
    var v := Sub3(pts[2], pts[0]);
    CrossProductOrthogonal(u, v);
    assert Sub3(pts[0], pts[0]) == Origin;
    PlaneHeightOnPlane(pts, pts[0]);
    PlaneHeightOnPlane(pts, pts[1]);
    PlaneHeightOnPlane(pts, pts[2]);
  }

  /** Points taken from the plane `z = A x + B y + C` give back that plane everywhere: the
      interpolation is exact on a planar surface. */
  lemma PlanarSurfaceIsExact(pts: seq<Point>, A: real, B: real, C: real, q: Point)
    requires |pts| == 3 && Normal(pts).z != 0.0
    requires forall i :: 0 <= i < 3 ==> pts[i].z == A * pts[i].x + B * pts[i].y + C
    ensures PlaneHeight(pts, q) == A * q.x + B * q.y + C
  {
    var u := Sub3(pts[1], pts[0]);
    var v := Sub3(pts[2], pts[0]);
    var n := Normal(pts);
    assert u.z == A * u.x + B * u.y;
    assert v.z == A * v.x + B * v.y;
    assert n.x == u.y * (A * v.x + B * v.y) - (A * u.x + B * u.y) * v.y;
    assert n.x == -A * n.z;
    assert n.y == -(u.x * (A * v.x + B * v.y) - (A * u.x + B * u.y) * v.x);
    assert n.y == -B * n.z;
    var lin := n.x * (q.x - pts[0].x) + n.y * (q.y - pts[0].y);
    assert lin == -(A * (q.x - pts[0].x) + B * (q.y - pts[0].y)) * n.z;
    assert lin / n.z == -(A * (q.x - pts[0].x) + B * (q.y - pts[0].y));
  }

  /** `pt_mm` of `compensateZCoord`. */
  function ToMillimeters(pt: Point, units: Unit): Point
  {
    Point(Convert(pt.x, units, Millimeters), Convert(pt.y, units, Millimeters),
          Convert(pt.z, units, Millimeters))
  }

  /** `compensateZCoord(pt, units)` once the store is in the order `order` (sorted for the
      query point in millimetres). */
  function CompensateWith(order: seq<Point>, pt: Point, units: Unit): Point
  {
    var mm := ToMillimeters(pt, units);
    var pts := ThreeClosest(order);
    if |pts| < 3 then pt
    else
      Point(Convert(mm.x, Millimeters, units), Convert(mm.y, Millimeters, units),
            Convert(mm.z + PlaneHeight(pts, mm), Millimeters, units))
  }

  /** Compensation only moves Z, by the plane height converted back to the input units; with
      fewer than three usable neighbours the point comes back unchanged. */
  lemma CompensationMovesOnlyZ(order: seq<Point>, pt: Point, units: Unit)
    ensures CompensateWith(order, pt, units).x == pt.x
    ensures CompensateWith(order, pt, units).y == pt.y
    ensures |ThreeClosest(order)| < 3 ==> CompensateWith(order, pt, units) == pt
    ensures |ThreeClosest(order)| == 3 ==>
      (CompensateWith(order, pt, units).z ==
       pt.z + Convert(PlaneHeight(ThreeClosest(order), ToMillimeters(pt, units)), Millimeters, units))
  {
    var mm := ToMillimeters(pt, units);
    ConvertRoundTrip(pt.x, units, Millimeters);
    ConvertRoundTrip(pt.y, units, Millimeters);
    ConvertRoundTrip(pt.z, units, Millimeters);
    if |ThreeClosest(order)| == 3 {
      ConvertAdditive(mm.z, PlaneHeight(ThreeClosest(order), mm), Millimeters, units);
    }
    ThreeClosestShape(order);
  }

  /** Querying at a probed point that was chosen as a neighbour gives back its measured
      height: a millimetre query at its XY position and height 0 returns its Z. */
  lemma CompensationAtChosenPoint(order: seq<Point>, i: nat)
    requires |ThreeClosest(order)| == 3 && i < 3
    ensures CompensateWith(order, Point(ThreeClosest(order)[i].x, ThreeClosest(order)[i].y, 0.0),
      Millimeters).z == ThreeClosest(order)[i].z
  {
    var pts := ThreeClosest(order);
    ChosenPlaneIsNotVertical(order);
    PlaneThroughChosenPoints(pts);
    var q := Point(pts[i].x, pts[i].y, 0.0);
    ConvertSameUnit(q.x, Millimeters);
    ConvertSameUnit(q.y, Millimeters);
    ConvertSameUnit(q.z, Millimeters);
    assert ToMillimeters(q, Millimeters) == q;
    PlaneHeightXY(pts, q, pts[i]);
    ConvertSameUnit(q.z + PlaneHeight(pts, q), Millimeters);
  }

  /** The plane height depends on the XY position only. */
  lemma PlaneHeightXY(pts: seq<Point>, a: Point, b: Point)
    requires |pts| == 3 && a.x == b.x && a.y == b.y
    ensures PlaneHeight(pts, a) == PlaneHeight(pts, b)
  {
  }

  /** `c` is a result `compensateZCoord(pt, units)` can give on the store `store`: some
      permutation of it, sorted for the query point whenever the sort runs (three points or
      more), yields `c`. The sort fixes no order among equidistant points, so the model does
      not either. */
  ghost predicate Compensates(store: seq<Point>, pt: Point, units: Unit, c: Point)
  {
    exists order :: multiset(order) == multiset(store)
      && (|order| >= 3 ==> SortedByDistance(order, ToMillimeters(pt, units)))
      && c == CompensateWith(order, pt, units)
  }

  /** A sorted permutation of the store is a witness of `Compensates`. */
  lemma CompensatesFromOrder(store: seq<Point>, order: seq<Point>, pt: Point, units: Unit)
    requires multiset(order) == multiset(store)
    requires |order| >= 3 ==> SortedByDistance(order, ToMillimeters(pt, units))
    ensures Compensates(store, pt, units, CompensateWith(order, pt, units))
  {
  }

  /** `Compensates` depends on the store only through its multiset. */
  lemma CompensatesSameStore(a: seq<Point>, b: seq<Point>, pt: Point, units: Unit, c: Point)
    requires multiset(a) == multiset(b) && Compensates(a, pt, units, c)
    ensures Compensates(b, pt, units, c)
  {
    var order :| multiset(order) == multiset(a)
      && (|order| >= 3 ==> SortedByDistance(order, ToMillimeters(pt, units)))
      && c == CompensateWith(order, pt, units);
    CompensatesFromOrder(b, order, pt, units);
  }

  /** Whatever the order among equidistant points, compensation keeps X and Y, and a store
      of fewer than three points leaves the point alone. */
  lemma CompensatesMovesOnlyZ(store: seq<Point>, pt: Point, units: Unit, c: Point)
    requires Compensates(store, pt, units, c)
    ensures c.x == pt.x && c.y == pt.y
    ensures |store| < 3 ==> c == pt
  {
    var order :| multiset(order) == multiset(store)
      && (|order| >= 3 ==> SortedByDistance(order, ToMillimeters(pt, units)))
      && c == CompensateWith(order, pt, units);
    assert |order| == |multiset(order)| == |store|;
    CompensationMovesOnlyZ(order, pt, units);
    ThreeClosestShape(order);
  }

  // ---------------------------------------------------------------- probe statistics

  /** Sum of the Z coordinates of the stored points. */
  function SumZ(s: seq<Point>): real
  {
    if s == [] then 0.0 else s[0].z + SumZ(s[1..])
  }

  /** The sum splits over a concatenation; in particular `sum_dz += pt.z` follows a push. */
  lemma {:induction false} SumZConcat(a: seq<Point>, b: seq<Point>)
    ensures SumZ(a + b) == SumZ(a) + SumZ(b)
    decreases |a|
  {
    if a == [] {
      assert a + b == b;
    } else {
      assert (a + b)[1..] == a[1..] + b;
      SumZConcat(a[1..], b);
    }
  }

  lemma RemoveOneMultiset(b: seq<Point>, j: nat)
    requires j < |b|
    ensures multiset(b) == multiset(b[..j] + b[j + 1..]) + multiset{b[j]}
  {
    assert b == b[..j] + [b[j]] + b[j + 1..];
  }

  lemma HeadMultiset(a: seq<Point>)
    requires a != []
    ensures multiset(a) == multiset(a[1..]) + multiset{a[0]}
  {
    assert a == [a[0]] + a[1..];
  }

  lemma MultisetCancel(x: multiset<Point>, y: multiset<Point>, p: Point, m: multiset<Point>)
    requires m == x + multiset{p} && m == y + multiset{p}
    ensures x == y
  {
    forall e
      ensures x[e] == y[e]
    {
      assert m[e] == x[e] + multiset{p}[e];
      assert m[e] == y[e] + multiset{p}[e];
    }
  }

  /** Taking one point out of a sequence takes its height out of the sum. */
  lemma RemoveOneSum(b: seq<Point>, j: nat)
    requires j < |b|
    ensures SumZ(b) == SumZ(b[..j] + b[j + 1..]) + b[j].z
  {
    var left, right := b[..j], b[j + 1..];
    Around(b, j);
    SumZConcat(left, [b[j]] + right);
    SumZCons(b[j], right);
    SumZConcat(left, right);
  }

  lemma Around(b: seq<Point>, j: nat)
    requires j < |b|
    ensures b == b[..j] + ([b[j]] + b[j + 1..])
  {
    assert b == b[..j] + [b[j]] + b[j + 1..];
  }

  lemma SumZCons(p: Point, r: seq<Point>)
    ensures SumZ([p] + r) == p.z + SumZ(r)
  {
    assert ([p] + r)[1..] == r;
  }

  /** The sum does not depend on the order, so the sort in `getThreeClosestPoints` keeps
      `sum_dz` equal to the sum of the stored heights. */
  lemma {:induction false} SumZPermutation(a: seq<Point>, b: seq<Point>)
    requires multiset(a) == multiset(b)
    ensures SumZ(a) == SumZ(b)
    decreases |a|
  {
    if a != [] {
      var last := a[0];
      assert last in multiset(b);
      var k :| 0 <= k < |b| && b[k] == last;
      RemoveOneMultiset(b, k);
      RemoveOneSum(b, k);
      var rest := b[..k] + b[k + 1..];
      HeadMultiset(a);
      MultisetCancel(multiset(a[1..]), multiset(rest), last, multiset(a));
      SumZPermutation(a[1..], rest);
    } else {
      assert |b| == |multiset(b)| == 0;
    }
  }

  /** The running statistics of the probe-reply handler: `lo` and `hi` bound every stored
      height, and while points are stored they are attained and `sum` is their sum. */
  predicate StatsOf(pts: seq<Point>, lo: real, hi: real, sum: real)
  {
    (forall p :: p in pts ==> lo <= p.z <= hi)
    && (pts != [] ==>
          sum == SumZ(pts) && (exists p :: p in pts && p.z == lo) && (exists p :: p in pts && p.z == hi))
  }

  /** Storing a point: the first point of a run sets all three statistics to its height;
      a later one widens the bounds when needed and adds to the sum. */
  lemma StatsPush(pts: seq<Point>, lo: real, hi: real, sum: real, p: Point)
    requires StatsOf(pts, lo, hi, sum)
    ensures pts == [] ==> StatsOf(pts + [p], p.z, p.z, p.z)
    ensures pts != [] ==>
      StatsOf(pts + [p], if p.z < lo then p.z else lo, if p.z > hi then p.z else hi, sum + p.z)
  {
    SumZConcat(pts, [p]);
    assert SumZ([p]) == p.z by {
      assert [p][1..] == [];
    }
    assert p in pts + [p];
    if pts != [] {
      var a :| a in pts && a.z == lo;
      var b :| b in pts && b.z == hi;
      assert a in pts + [p] && b in pts + [p];
    }
  }

  /** Reordering the store keeps the statistics. */
  lemma StatsPermutation(a: seq<Point>, b: seq<Point>, lo: real, hi: real, sum: real)
    requires multiset(a) == multiset(b) && StatsOf(a, lo, hi, sum)
    ensures StatsOf(b, lo, hi, sum)
  {
    forall p | p in b
      ensures lo <= p.z <= hi
    {
      assert p in multiset(a);
    }
    if b != [] {
      assert |a| == |multiset(a)| == |b|;
      SumZPermutation(a, b);
      var x :| x in a && x.z == lo;
      var y :| y in a && y.z == hi;
      assert x in multiset(b) && y in multiset(b);
    }
  }
}

=== FILE: text.dfy ===
/**
 * The text side of the G-code rewrite in autolevel.js: `stripComments`, the regular
 * expression tests that classify a stripped line, the extraction and removal of X/Y/Z words,
 * and splitting the loaded program into lines. JavaScript's regex semantics are written out:
 * `\s` is the ECMAScript white-space set, `.` is any character but a line terminator, and the
 * `i` flag folds ASCII letters only.
 */
module GcodeText {
  import opened Wrappers

  predicate IsLineTerminator(c: char)
  {
    c == '\n' || c == '\r' || c == '\U{2028}' || c == '\U{2029}'
  }

  /** The characters of the class `\s`. */
  const SpaceChars: set<char> := {
    ' ', '\t', '\U{000B}', '\U{000C}', '\n', '\r', '\U{2028}', '\U{2029}', '\U{00A0}', '\U{1680}',
    '\U{2000}', '\U{2001}', '\U{2002}', '\U{2003}', '\U{2004}', '\U{2005}', '\U{2006}', '\U{2007}',
    '\U{2008}', '\U{2009}', '\U{200A}', '\U{202F}', '\U{205F}', '\U{3000}', '\U{FEFF}'
  }

  predicate IsSpace(c: char)
  {
    c in SpaceChars
  }

  /** The class `[\.\+\-\d]` of number characters in coordinate and parameter words. */
  predicate IsNumberChar(c: char)
  {
    c == '.' || c == '+' || c == '-' || ('0' <= c <= '9')
  }

  /** Length of the longest prefix of `s` made of white space (what `\s*` consumes). */
  function SpaceRun(s: string): (n: nat)
    ensures n <= |s|
  {
    if s != [] && IsSpace(s[0]) then 1 + SpaceRun(s[1..]) else 0
  }

  /** Length of the longest prefix of `s` without a line terminator (what `.*` consumes). */
  function TextRun(s: string): (n: nat)
    ensures n <= |s|
  {
    if s != [] && !IsLineTerminator(s[0]) then 1 + TextRun(s[1..]) else 0
  }

  /** Length of the longest prefix of `s` made of number characters (what `[\.\+\-\d]+` consumes). */
  function NumberRun(s: string): (n: nat)
    ensures n <= |s|
    ensures forall k :: 0 <= k < n ==> IsNumberChar(s[k])
    ensures n < |s| ==> !IsNumberChar(s[n])
  {
    if s != [] && IsNumberChar(s[0]) then 1 + NumberRun(s[1..]) else 0
  }

  /** Index of the first `c` in `s`, or `|s|` when there is none. */
  function IndexOf(s: string, c: char): (k: nat)
    ensures k <= |s|
    ensures k < |s| ==> s[k] == c
    ensures forall j :: 0 <= j < k ==> s[j] != c
  {
    IndexFrom(s, c, 0)
  }

  /** Index of the first `c` in `s` at or after `i`, or `|s|` when there is none. Scanning by
      position rather than by suffix keeps the unfolding of callers such as `SplitLines` cheap. */
  function IndexFrom(s: string, c: char, i: nat): (k: nat)
    requires i <= |s|
    ensures i <= k <= |s|
    ensures k < |s| ==> s[k] == c
    ensures forall j :: i <= j < k ==> s[j] != c
    decreases |s| - i
  {
    if i == |s| || s[i] == c then i else IndexFrom(s, c, i + 1)
  }

  // ---------------------------------------------------------------- stripComments

  /** The pattern `\s*\([^\)]*\)` matches at the start of `s`: after the white space comes a `(`
      that some later `)` closes. */
  predicate StartsGroup(s: string)
  {
    SpaceRun(s) < |s| && s[SpaceRun(s)] == '(' && ')' in s[SpaceRun(s)..]
  }

  /** Where that match ends: just after the first `)` behind the `(`. */
  function GroupEnd(s: string): (k: nat)
    requires StartsGroup(s)
    ensures 0 < k <= |s|
  {
    var open := SpaceRun(s);
    assert IndexOf(s[open..], ')') < |s[open..]|;
    open + IndexOf(s[open..], ')') + 1
  }

  /** First replacement of `stripComments`, global `\s*\([^\)]*\)` by '': scanning left to right,
      white space followed by `(` and text up to the next `)` is removed. A `(` with no `)`
      after it does not match and stays. */
  function RemoveGroups(s: string): (r: string)
    ensures |r| <= |s|
    decreases |s|
  {
    if s == [] then []
    else if StartsGroup(s) then RemoveGroups(s[GroupEnd(s)..])
    else [s[0]] + RemoveGroups(s[1..])
  }

  /** The pattern `\s*;.*` matches at the start of `s`. */
  predicate StartsComment(s: string)
  {
    SpaceRun(s) < |s| && s[SpaceRun(s)] == ';'
  }

  /** Where that match ends: at the next line terminator, or at the end. */
  function CommentEnd(s: string): (k: nat)
    requires StartsComment(s)
    ensures 0 < k <= |s|
  {
    SpaceRun(s) + 1 + TextRun(s[SpaceRun(s) + 1..])
  }

  /** Second replacement, global `\s*;.*` by '': white space, a `;` and the rest of the line
      up to a line terminator are removed. */
  function RemoveLineComments(s: string): (r: string)
    ensures |r| <= |s|
    decreases |s|
  {
    if s == [] then []
    else if StartsComment(s) then RemoveLineComments(s[CommentEnd(s)..])
    else [s[0]] + RemoveLineComments(s[1..])
  }

  /** Third replacement, global `\s+` by '': all white space goes. */
  function RemoveSpaces(s: string): (r: string)
    ensures |r| <= |s|
    ensures forall i :: 0 <= i < |r| ==> !IsSpace(r[i])
  {
    if s == [] then []
    else if IsSpace(s[0]) then RemoveSpaces(s[1..])
    else [s[0]] + RemoveSpaces(s[1..])
  }

  /** `stripComments(line)`. */
  function StripComments(line: string): string
  {
    RemoveSpaces(RemoveLineComments(RemoveGroups(line)))
  }

  /** No `(` has a `)` somewhere after it (stated one character at a time;
      `NoCompleteGroupMeaning` gives the pairwise reading). */
  predicate NoCompleteGroup(s: string)
  {
    s == [] || ((s[0] == '(' ==> ')' !in s[1..]) && NoCompleteGroup(s[1..]))
  }

  lemma {:induction false} NoCompleteGroupMeaning(s: string)
    requires NoCompleteGroup(s)
    ensures forall i, j :: 0 <= i < j < |s| ==> !(s[i] == '(' && s[j] == ')')
  {
    if s != [] {
      NoCompleteGroupMeaning(s[1..]);
      forall i, j | 0 <= i < j < |s|
        ensures !(s[i] == '(' && s[j] == ')')
      {
        if i == 0 {
          assert s[j] == s[1..][j - 1];
        } else {
          assert s[i] == s[1..][i - 1] && s[j] == s[1..][j - 1];
        }
      }
    }
  }

  lemma ConsNoGroup(c: char, t: string)
    requires NoCompleteGroup(t)
    requires c == '(' ==> ')' !in t
    ensures NoCompleteGroup([c] + t)
  {
    assert ([c] + t)[1..] == t;
  }

  /** A `(` at the very start is matched only if some `)` follows. */
  lemma LeadingOpen(s: string)
    requires s != [] && s[0] == '(' && !StartsGroup(s)
    ensures ')' !in s[1..]
  {
    assert !IsSpace('(');
    assert SpaceRun(s) == 0 && s[0..] == s;
  }

  /** A `;` at the very start always begins a comment. */
  lemma LeadingSemicolon(s: string)
    requires s != [] && s[0] == ';'
    ensures StartsComment(s)
  {
    assert !IsSpace(';');
  }

  lemma {:induction false} RemoveGroupsLeavesNoGroup(s: string)
    ensures NoCompleteGroup(RemoveGroups(s))
    decreases |s|
  {
    if s != [] {
      if StartsGroup(s) {
        RemoveGroupsLeavesNoGroup(s[GroupEnd(s)..]);
      } else {
        RemoveGroupsLeavesNoGroup(s[1..]);
        if s[0] == '(' {
          LeadingOpen(s);
          RemoveGroupsWithoutClose(s[1..]);
        }
        ConsNoGroup(s[0], RemoveGroups(s[1..]));
      }
    }
  }

  lemma {:induction false} RemoveLineCommentsLeavesNoSemicolon(s: string)
    ensures ';' !in RemoveLineComments(s)
    decreases |s|
  {
    if s != [] {
      if StartsComment(s) {
        RemoveLineCommentsLeavesNoSemicolon(s[CommentEnd(s)..]);
      } else {
        RemoveLineCommentsLeavesNoSemicolon(s[1..]);
        if s[0] == ';' {
          LeadingSemicolon(s);
        }
      }
    }
  }

  lemma {:induction false} NoCompleteGroupSuffix(s: string, k: nat)
    requires NoCompleteGroup(s) && k <= |s|
    ensures NoCompleteGroup(s[k..])
    decreases k
  {
    if k > 0 {
      NoCompleteGroupSuffix(s[1..], k - 1);
      assert s[1..][k - 1..] == s[k..];
    }
  }

  /** `RemoveLineComments` only deletes characters. */
  lemma {:induction false} RemoveLineCommentsOmits(s: string, c: char)
    requires c !in s
    ensures c !in RemoveLineComments(s)
    decreases |s|
  {
    if s != [] {
      if StartsComment(s) {
        var tail := s[CommentEnd(s)..];
        assert forall i :: 0 <= i < |tail| ==> tail[i] == s[CommentEnd(s) + i];
        RemoveLineCommentsOmits(tail, c);
      } else {
        assert c !in s[1..];
        RemoveLineCommentsOmits(s[1..], c);
      }
    }
  }

  /** `RemoveSpaces` only deletes characters. */
  lemma {:induction false} RemoveSpacesOmits(s: string, c: char)
    requires c !in s
    ensures c !in RemoveSpaces(s)
    decreases |s|
  {
    if s != [] {
      assert c !in s[1..];
      RemoveSpacesOmits(s[1..], c);
    }
  }

  /** Removing a line comment cannot create a `(` ... `)` pair. */
  lemma {:induction false} RemoveLineCommentsKeepsNoGroup(s: string)
    requires NoCompleteGroup(s)
    ensures NoCompleteGroup(RemoveLineComments(s))
    decreases |s|
  {
    if s != [] {
      if StartsComment(s) {
        NoCompleteGroupSuffix(s, CommentEnd(s));
        RemoveLineCommentsKeepsNoGroup(s[CommentEnd(s)..]);
      } else {
        NoCompleteGroupSuffix(s, 1);
        RemoveLineCommentsKeepsNoGroup(s[1..]);
        if s[0] == '(' {
          RemoveLineCommentsOmits(s[1..], ')');
        }
        ConsNoGroup(s[0], RemoveLineComments(s[1..]));
      }
    }
  }

  /** Removing white space cannot create a `(` ... `)` pair. */
  lemma {:induction false} RemoveSpacesKeepsNoGroup(s: string)
    requires NoCompleteGroup(s)
    ensures NoCompleteGroup(RemoveSpaces(s))
    decreases |s|
  {
    if s != [] {
      NoCompleteGroupSuffix(s, 1);
      RemoveSpacesKeepsNoGroup(s[1..]);
      if !IsSpace(s[0]) {
        if s[0] == '(' {
          RemoveSpacesOmits(s[1..], ')');
        }
        ConsNoGroup(s[0], RemoveSpaces(s[1..]));
      }
    }
  }

  /** What `stripComments` leaves: no white space, no `;`, and no complete `(...)` group. */
  lemma StripCommentsClean(line: string)
    ensures forall i :: 0 <= i < |StripComments(line)| ==> !IsSpace(StripComments(line)[i])
    ensures ';' !in StripComments(line)
    ensures NoCompleteGroup(StripComments(line))
    ensures forall i, j :: 0 <= i < j < |StripComments(line)| ==>
      !(StripComments(line)[i] == '(' && StripComments(line)[j] == ')')
  {
    var a := RemoveGroups(line);
    var b := RemoveLineComments(a);
    RemoveGroupsLeavesNoGroup(line);
    RemoveLineCommentsKeepsNoGroup(a);
    RemoveSpacesKeepsNoGroup(b);
    RemoveLineCommentsLeavesNoSemicolon(a);
    RemoveSpacesOmits(b, ';');
    NoCompleteGroupMeaning(StripComments(line));
  }

  lemma {:induction false} RemoveGroupsWithoutClose(s: string)
    requires ')' !in s
    ensures RemoveGroups(s) == s
    decreases |s|
  {
    if s != [] {
      assert ')' !in s[1..];
      assert !StartsGroup(s) by {
        assert ')' !in s[SpaceRun(s)..];
      }
      RemoveGroupsWithoutClose(s[1..]);
    }
  }

  lemma {:induction false} RemoveLineCommentsWithoutSemicolon(s: string)
    requires ';' !in s
    ensures RemoveLineComments(s) == s
    decreases |s|
  {
    if s != [] {
      assert ';' !in s[1..];
      assert !StartsComment(s) by {
        if SpaceRun(s) < |s| {
          assert s[SpaceRun(s)] in s;
        }
      }
      RemoveLineCommentsWithoutSemicolon(s[1..]);
    }
  }

  /** A `(` that no `)` closes is not a comment: with no `)` and no `;` on the line,
      `stripComments` only removes white space. */
  lemma UnclosedParenthesisSurvives(line: string)
    requires ')' !in line && ';' !in line
    ensures StripComments(line) == RemoveSpaces(line)
  {
    RemoveGroupsWithoutClose(line);
    RemoveLineCommentsWithoutSemicolon(line);
  }

  /** No line terminator: one line of a program split on its line feeds, without a stray
      carriage return or separator inside it. */
  predicate SingleLine(s: string)
  {
    forall i :: 0 <= i < |s| ==> !IsLineTerminator(s[i])
  }

  /** What a reader of the program takes for its code, one character at a time from the left:
      a `;` ends the code, a `(` that some later `)` closes starts a comment up to that `)`,
      white space goes, and every other character stays. */
  function Kept(s: string): string
    decreases |s|
  {
    if s == [] then []
    else if s[0] == ';' then []
    else if s[0] == '(' && ')' in s[1..] then Kept(s[IndexOf(s, ')') + 1..])
    else if IsSpace(s[0]) then Kept(s[1..])
    else [s[0]] + Kept(s[1..])
  }

  lemma {:induction false} TextRunSingleLine(s: string)
    requires SingleLine(s)
    ensures TextRun(s) == |s|
    decreases |s|
  {
    if s != [] {
      TextRunSingleLine(s[1..]);
    }
  }

  lemma {:induction false} RemoveGroupsSingleLine(s: string)
    requires SingleLine(s)
    ensures SingleLine(RemoveGroups(s))
    decreases |s|
  {
    if s != [] {
      if StartsGroup(s) {
        RemoveGroupsSingleLine(s[GroupEnd(s)..]);
      } else {
        RemoveGroupsSingleLine(s[1..]);
      }
    }
  }

  /** A `;` at the start of a line leaves nothing of it. */
  lemma StripCommentsSemicolon(s: string)
    requires SingleLine(s) && s != [] && s[0] == ';'
    ensures StripComments(s) == []
  {
    assert !IsSpace(';');
    assert SpaceRun(s) == 0 && !StartsGroup(s);
    var x := RemoveGroups(s);
    RemoveGroupsSingleLine(s);
    assert x == [';'] + RemoveGroups(s[1..]);
    LeadingSemicolon(x);
    TextRunSingleLine(x[1..]);
    assert CommentEnd(x) == |x|;
  }

  /** A complete group at the start of a line disappears. */
  lemma StripCommentsGroup(s: string)
    requires s != [] && s[0] == '(' && ')' in s[1..]
    ensures StripComments(s) == StripComments(s[IndexOf(s, ')') + 1..])
  {
    assert !IsSpace('(');
    assert SpaceRun(s) == 0 && s[0..] == s;
    assert StartsGroup(s);
    assert GroupEnd(s) == IndexOf(s, ')') + 1;
  }

  /** Any other character that is not white space stays, in front of what the rest leaves. */
  lemma StripCommentsPlain(s: string)
    requires s != [] && !IsSpace(s[0]) && s[0] != ';' && !(s[0] == '(' && ')' in s[1..])
    ensures StripComments(s) == [s[0]] + StripComments(s[1..])
  {
    var c := s[0];
    assert SpaceRun(s) == 0 && s[0..] == s;
    if c == '(' {
      assert s == [c] + s[1..];
    }
    assert !StartsGroup(s);
    var x := RemoveGroups(s[1..]);
    assert RemoveGroups(s) == [c] + x;
    assert ([c] + x)[1..] == x;
    assert !StartsComment([c] + x);
    var y := RemoveLineComments(x);
    assert RemoveLineComments([c] + x) == [c] + y;
    assert ([c] + y)[1..] == y;
  }

  /** White space at the front of `s` sits in front of `s[1..]` too: a group starting
      behind it starts behind the shorter run as well, and ends at the same place. */
  lemma SpaceFrontGroup(s: string)
    requires s != [] && IsSpace(s[0])
    ensures StartsGroup(s) <==> StartsGroup(s[1..])
    ensures StartsGroup(s) ==> s[GroupEnd(s)..] == s[1..][GroupEnd(s[1..])..]
  {
    var t := s[1..];
    var n := SpaceRun(t);
    assert SpaceRun(s) == 1 + n;
    if n < |t| {
      assert s[1 + n] == t[n];
      assert s[1 + n..] == t[n..];
    }
  }

  /** The same for a comment starting behind the white space. */
  lemma SpaceFrontComment(s: string)
    requires s != [] && IsSpace(s[0])
    ensures StartsComment(s) <==> StartsComment(s[1..])
    ensures StartsComment(s) ==> s[CommentEnd(s)..] == s[1..][CommentEnd(s[1..])..]
  {
    var t := s[1..];
    var n := SpaceRun(t);
    assert SpaceRun(s) == 1 + n;
    if n < |t| {
      assert s[1 + n] == t[n];
      assert s[1 + n + 1..] == t[n + 1..];
    }
  }

  /** White space at the start of a line makes no difference. */
  lemma StripCommentsSpace(s: string)
    requires s != [] && IsSpace(s[0])
    ensures StripComments(s) == StripComments(s[1..])
  {
    var c, t := s[0], s[1..];
    SpaceFrontGroup(s);
    if !StartsGroup(s) {
      var x := RemoveGroups(t);
      var u := [c] + x;
      assert RemoveGroups(s) == u;
      assert u[1..] == x;
      SpaceFrontComment(u);
      if StartsComment(u) {
        assert RemoveLineComments(u) == RemoveLineComments(x);
      } else {
        var y := RemoveLineComments(x);
        assert RemoveLineComments(u) == [c] + y;
        assert ([c] + y)[1..] == y;
      }
    }
  }

  /** `stripComments` on one line keeps exactly what `Kept` keeps: the characters that are
      not white space, lie outside every complete `(...)` group and come before the first
      `;` outside those groups, in their order on the line. */
  lemma {:induction false} StripCommentsKept(line: string)
    requires SingleLine(line)
    ensures StripComments(line) == Kept(line)
    decreases |line|
  {
    if line != [] {
      var c := line[0];
      if c == ';' {
        assert StripComments(line) == Kept(line) by {
          StripCommentsSemicolon(line);
        }
      } else if c == '(' && ')' in line[1..] {
        var rest := line[IndexOf(line, ')') + 1..];
        assert StripComments(line) == Kept(line) by {
          StripCommentsGroup(line);
          SingleLineSuffix(line, IndexOf(line, ')') + 1);
          StripCommentsKept(rest);
          assert Kept(line) == Kept(rest);
        }
      } else if IsSpace(c) {
        assert StripComments(line) == Kept(line) by {
          StripCommentsSpace(line);
          SingleLineSuffix(line, 1);
          StripCommentsKept(line[1..]);
          assert Kept(line) == Kept(line[1..]);
        }
      } else {
        assert StripComments(line) == Kept(line) by {
          StripCommentsPlain(line);
          SingleLineSuffix(line, 1);
          StripCommentsKept(line[1..]);
          assert Kept(line) == [c] + Kept(line[1..]);
        }
      }
    }
  }


  lemma SingleLineSuffix(s: string, k: nat)
    requires SingleLine(s) && k <= |s|
    ensures SingleLine(s[k..])
  {
    assert forall i :: 0 <= i < |s| - k ==> s[k..][i] == s[k + i];
  }


  // ---------------------------------------------------------------- regular-expression tests

  predicate IsAsciiLetter(c: char)
  {
    'A' <= c <= 'Z' || 'a' <= c <= 'z'
  }

  /** The `i` flag folds ASCII letters only: a letter becomes its capital, so a pattern
      letter matches both cases of itself and nothing else, and every other character is
      left as it is. */
  function UpperAscii(c: char): (u: char)
    ensures !('a' <= u <= 'z')
    ensures 'A' <= u <= 'Z' <==> IsAsciiLetter(c)
    ensures 'A' <= u <= 'Z' ==> c == u || c as int == u as int + 32
    ensures !IsAsciiLetter(c) ==> u == c
  {
    if 'a' <= c <= 'z' then (c as int - 32) as char else c
  }

  /** One pattern character against one text character, case-insensitively; `.` is any
      character but a line terminator. Patterns are written in upper case. */
  predicate PatternCharMatches(c: char, p: char)
  {
    if p == '.' then !IsLineTerminator(c) else UpperAscii(c) == p
  }

  /** `pattern` matches at the start of `s`. */
  predicate PrefixMatches(s: string, pattern: string)
    decreases |pattern|
  {
    pattern == [] || (s != [] && PatternCharMatches(s[0], pattern[0]) && PrefixMatches(s[1..], pattern[1..]))
  }

  /** `RegExp.prototype.test`: `pattern` matches somewhere in `s`. A trailing `.+` asks only
      that one more character can be matched, so `G38.+` is written `G38.`. */
  predicate Contains(s: string, pattern: string)
    decreases |s|
  {
    PrefixMatches(s, pattern) || (s != [] && Contains(s[1..], pattern))
  }

  lemma {:induction false} PrefixMatchesAt(s: string, pattern: string, k: nat)
    requires PrefixMatches(s, pattern) && k <= |pattern|
    ensures PrefixMatches(s, pattern[..k])
    decreases k
  {
    if k > 0 {
      PrefixMatchesAt(s[1..], pattern[1..], k - 1);
      assert pattern[..k][1..] == pattern[1..][..k - 1];
    }
  }

  /** A match of a pattern is a match of each of its prefixes; hence the alternative
      `G92.1` never decides a test that `G92` has not already decided. */
  lemma {:induction false} ContainsPrefix(s: string, pattern: string, k: nat)
    requires Contains(s, pattern) && k <= |pattern|
    ensures Contains(s, pattern[..k])
    decreases |s|
  {
    if PrefixMatches(s, pattern) {
      PrefixMatchesAt(s, pattern, k);
    } else {
      ContainsPrefix(s[1..], pattern, k);
    }
  }

  /** A match lies inside the text: a pattern longer than the text never matches. */
  lemma {:induction false} ContainsFits(s: string, pattern: string)
    requires Contains(s, pattern)
    ensures |pattern| <= |s|
    decreases |s|
  {
    if PrefixMatches(s, pattern) {
      PrefixMatchesFits(s, pattern);
    } else {
      ContainsFits(s[1..], pattern);
    }
  }

  lemma {:induction false} PrefixMatchesFits(s: string, pattern: string)
    requires PrefixMatches(s, pattern)
    ensures |pattern| <= |s|
    decreases |pattern|
  {
    if pattern != [] {
      PrefixMatchesFits(s[1..], pattern[1..]);
    }
  }

  /** The G-codes that `applyCompensation` copies without compensation:
      `(G38.+|G5.+|G10|G4.+|G92|G92.1)` with the `i` flag. */
  predicate IsPassThrough(s: string)
  {
    Contains(s, "G38.") || Contains(s, "G5.") || Contains(s, "G10") || Contains(s, "G4.")
    || Contains(s, "G92") || Contains(s, "G92.1")
  }

  lemma PassThroughWithoutG92Point1(s: string)
    ensures IsPassThrough(s) <==>
      (Contains(s, "G38.") || Contains(s, "G5.") || Contains(s, "G10") || Contains(s, "G4.")
       || Contains(s, "G92"))
  {
    if Contains(s, "G92.1") {
      ContainsPrefix(s, "G92.1", 3);
      assert "G92.1"[..3] == "G92";
    }
  }

  predicate IsAxisLetter(c: char)
  {
    UpperAscii(c) == 'X' || UpperAscii(c) == 'Y' || UpperAscii(c) == 'Z'
  }

  /** `/(X|Y|Z)/gi.test(s)`. */
  predicate HasAxisLetter(s: string)
    decreases |s|
  {
    s != [] && (IsAxisLetter(s[0]) || HasAxisLetter(s[1..]))
  }

  // ---------------------------------------------------------------- coordinate words

  /** An axis letter followed by a number character starts `s`: the pattern
      `([XYZ])([\.\+\-\d]+)` matches here. */
  predicate StartsCoordinate(s: string)
  {
    |s| >= 2 && IsAxisLetter(s[0]) && IsNumberChar(s[1])
  }

  /** `/A([\.\+\-\d]+)/gi.exec(s)` for an axis `A` in upper case: the leftmost `A` or `a`
      followed by a number character, and the longest run of number characters behind it. */
  function CoordinateWord(s: string, axis: char): (r: Option<string>)
    ensures r.Some? ==> r.value != [] && forall k :: 0 <= k < |r.value| ==> IsNumberChar(r.value[k])
    decreases |s|
  {
    if |s| < 2 then None
    else if UpperAscii(s[0]) == axis && IsNumberChar(s[1]) then Some(s[1..1 + NumberRun(s[1..])])
    else CoordinateWord(s[1..], axis)
  }

  /** An `axis` word starts at index `k` of `s`: the letter, in either case, then a number
      character. */
  predicate WordAt(s: string, axis: char, k: int)
  {
    0 <= k < |s| - 1 && UpperAscii(s[k]) == axis && IsNumberChar(s[k + 1])
  }

  /** `k` is the first index where an `axis` word starts. */
  predicate FirstWordAt(s: string, axis: char, k: int)
  {
    WordAt(s, axis, k) && forall j :: 0 <= j < k ==> !WordAt(s, axis, j)
  }

  /** The number run behind the letter at index `k`. */
  function WordValue(s: string, k: nat): (v: string)
    requires k < |s| - 1 && IsNumberChar(s[k + 1])
    ensures v != [] && v <= s[k + 1..]
    ensures forall i :: 0 <= i < |v| ==> IsNumberChar(v[i])
  {
    s[k + 1..][..NumberRun(s[k + 1..])]
  }

  /** Dropping the first character shifts every word start down by one. */
  lemma WordAtShift(s: string, axis: char)
    requires s != []
    ensures forall k :: 0 <= k ==> (WordAt(s[1..], axis, k) <==> WordAt(s, axis, k + 1))
  {
    var t := s[1..];
    forall k | 0 <= k
      ensures WordAt(t, axis, k) <==> WordAt(s, axis, k + 1)
    {
      if 0 <= k < |t| - 1 {
        assert t[k] == s[k + 1] && t[k + 1] == s[k + 2];
      }
    }
  }

  /** `exec` finds a word exactly when the line holds one. */
  lemma {:induction false} CoordinateWordFound(s: string, axis: char)
    ensures CoordinateWord(s, axis).Some? <==> exists k :: WordAt(s, axis, k)
    decreases |s|
  {
    if |s| < 2 {
      assert forall k :: !WordAt(s, axis, k);
    } else if !WordAt(s, axis, 0) {
      var t := s[1..];
      CoordinateWordFound(t, axis);
      WordAtShift(s, axis);
      assert CoordinateWord(s, axis) == CoordinateWord(t, axis);
      if CoordinateWord(s, axis).Some? {
        var k :| WordAt(t, axis, k);
        assert WordAt(s, axis, k + 1);
      }
      if k :| WordAt(s, axis, k) {
        assert WordAt(t, axis, k - 1);
      }
    }
  }

  /** The word `exec` returns is the number run behind the leftmost word start. */
  lemma {:induction false} CoordinateWordValue(s: string, axis: char, k: int)
    requires FirstWordAt(s, axis, k)
    ensures CoordinateWord(s, axis) == Some(WordValue(s, k))
    decreases k
  {
    if k != 0 {
      var t := s[1..];
      assert !WordAt(s, axis, 0);
      assert CoordinateWord(s, axis) == CoordinateWord(t, axis);
      WordAtShift(s, axis);
      assert FirstWordAt(t, axis, k - 1) by {
        forall j | 0 <= j < k - 1
          ensures !WordAt(t, axis, j)
        {
          assert !WordAt(s, axis, j + 1);
        }
      }
      CoordinateWordValue(t, axis, k - 1);
      assert t[k..] == s[k + 1..];
    } else {
      assert s[1..1 + NumberRun(s[1..])] == s[1..][..NumberRun(s[1..])];
    }
  }

  /** `exec` finds a word exactly when the line holds one, and returns the number run of the
      leftmost. */
  lemma CoordinateWordLeftmost(s: string, axis: char)
    ensures CoordinateWord(s, axis).Some? <==> exists k :: WordAt(s, axis, k)
    ensures forall k :: FirstWordAt(s, axis, k) ==> CoordinateWord(s, axis) == Some(WordValue(s, k))
  {
    CoordinateWordFound(s, axis);
    forall k | FirstWordAt(s, axis, k)
      ensures CoordinateWord(s, axis) == Some(WordValue(s, k))
    {
      CoordinateWordValue(s, axis, k);
    }
  }

  /** A coordinate word needs its axis letter: without X, Y or Z on the line none is found. */
  lemma {:induction false} CoordinateWordNeedsAxis(s: string, axis: char)
    requires axis == 'X' || axis == 'Y' || axis == 'Z'
    requires CoordinateWord(s, axis).Some?
    ensures HasAxisLetter(s)
    decreases |s|
  {
    if !(UpperAscii(s[0]) == axis && IsNumberChar(s[1])) {
      CoordinateWordNeedsAxis(s[1..], axis);
    }
  }

  /** Where the coordinate word at the start of `s` ends. */
  function CoordinateEnd(s: string): (k: nat)
    requires StartsCoordinate(s)
    ensures 2 <= k <= |s|
    ensures k < |s| ==> !IsNumberChar(s[k])
  {
    1 + NumberRun(s[1..])
  }

  /** `replace(/([XYZ])([\.\+\-\d]+)/gi, '')`: every coordinate word goes. */
  function StripCoordinates(s: string): (r: string)
    ensures |r| <= |s|
    decreases |s|
  {
    if s == [] then []
    else if StartsCoordinate(s) then StripCoordinates(s[CoordinateEnd(s)..])
    else [s[0]] + StripCoordinates(s[1..])
  }

  /** No axis letter is followed by a number character. */
  predicate NoCoordinateWord(s: string)
    decreases |s|
  {
    s == [] || (!StartsCoordinate(s) && NoCoordinateWord(s[1..]))
  }

  /** Behind a removed word comes no number character, so removal never glues a letter to
      a number. */
  lemma {:induction false} StripCoordinatesHead(s: string)
    requires s != [] && !IsNumberChar(s[0])
    ensures StripCoordinates(s) == [] || !IsNumberChar(StripCoordinates(s)[0])
    decreases |s|
  {
    if StartsCoordinate(s) {
      var k := CoordinateEnd(s);
      if k < |s| {
        StripCoordinatesHead(s[k..]);
      }
    }
  }

  lemma {:induction false} StripCoordinatesLeavesNone(s: string)
    ensures NoCoordinateWord(StripCoordinates(s))
    decreases |s|
  {
    if s != [] {
      if StartsCoordinate(s) {
        StripCoordinatesLeavesNone(s[CoordinateEnd(s)..]);
      } else {
        var tail := StripCoordinates(s[1..]);
        StripCoordinatesLeavesNone(s[1..]);
        if |s| >= 2 && IsAxisLetter(s[0]) {
          StripCoordinatesHead(s[1..]);
        }
        assert ([s[0]] + tail)[1..] == tail;
      }
    }
  }

  lemma {:induction false} NoCoordinateWordFindsNone(s: string, axis: char)
    requires axis == 'X' || axis == 'Y' || axis == 'Z'
    requires NoCoordinateWord(s)
    ensures CoordinateWord(s, axis) == None
    decreases |s|
  {
    if |s| >= 2 {
      NoCoordinateWordFindsNone(s[1..], axis);
    }
  }

  /** What is left of a line once its coordinates are stripped carries no X, Y or Z word. */
  lemma StrippedLineHasNoCoordinates(s: string)
    ensures CoordinateWord(StripCoordinates(s), 'X') == None
    ensures CoordinateWord(StripCoordinates(s), 'Y') == None
    ensures CoordinateWord(StripCoordinates(s), 'Z') == None
  {
    StripCoordinatesLeavesNone(s);
    NoCoordinateWordFindsNone(StripCoordinates(s), 'X');
    NoCoordinateWordFindsNone(StripCoordinates(s), 'Y');
    NoCoordinateWordFindsNone(StripCoordinates(s), 'Z');
  }

  // ---------------------------------------------------------------- lines

  /** `s.split('\n')`: at least one line, none holding a line feed. */
  function SplitLines(s: string): (lines: seq<string>)
    ensures |lines| >= 1
    ensures forall i :: 0 <= i < |lines| ==> '\n' !in lines[i]
    decreases |s|
  {
    var k := IndexOf(s, '\n');
    if k == |s| then [s] else [s[..k]] + SplitLines(s[k + 1..])
  }

  /** `lines.join('\n')`. */
  function JoinLines(lines: seq<string>): string
    decreases |lines|
  {
    if lines == [] then [] else if |lines| == 1 then lines[0] else lines[0] + "\n" + JoinLines(lines[1..])
  }

  /** Splitting loses nothing: joining the lines again gives back the text. */
  lemma {:induction false} SplitJoin(s: string)
    ensures JoinLines(SplitLines(s)) == s
    decreases |s|
  {
    var k := IndexOf(s, '\n');
    if k < |s| {
      SplitJoin(s[k + 1..]);
      JoinSplitAt(s, k);
      SplitAround(s, k);
    }
  }

  /** Joining the lines of a text with a line feed: the line before it, a line feed, and the
      joined lines after it. */
  lemma JoinSplitAt(s: string, k: nat)
    requires k < |s| && k == IndexOf(s, '\n')
    ensures JoinLines(SplitLines(s)) == s[..k] + "\n" + JoinLines(SplitLines(s[k + 1..]))
  {
    SplitLinesAt(s, k);
  }

  /** A text with a line feed splits into the line before it followed by the lines after it. */
  lemma SplitLinesAt(s: string, k: nat)
    requires k < |s| && k == IndexOf(s, '\n')
    ensures |SplitLines(s)| >= 2
    ensures SplitLines(s)[0] == s[..k]
    ensures SplitLines(s)[1..] == SplitLines(s[k + 1..])
  { }

  /** A text is the part before a line feed, the line feed and the part after it. */
  lemma SplitAround(s: string, k: nat)
    requires k < |s| && s[k] == '\n'
    ensures s == s[..k] + "\n" + s[k + 1..]
  {
    assert s == s[..k] + [s[k]] + s[k + 1..];
  }

  /** Lines without a line feed survive a join and a split unchanged. */
  lemma {:induction false} JoinSplit(lines: seq<string>)
    requires |lines| >= 1
    requires forall i :: 0 <= i < |lines| ==> '\n' !in lines[i]
    ensures SplitLines(JoinLines(lines)) == lines
    decreases |lines|
  {
    if |lines| == 1 {
      IndexOfAbsent(lines[0], '\n');
    } else {
      JoinSplit(lines[1..]);
      assert '\n' !in lines[0];
      SplitFirst(lines[0], JoinLines(lines[1..]));
      assert lines == [lines[0]] + lines[1..];
    }
  }

  /** A line feed after a line without one splits off that line. */
  lemma SplitFirst(head: string, rest: string)
    requires '\n' !in head
    ensures SplitLines(head + "\n" + rest) == [head] + SplitLines(rest)
  {
    var s := head + "\n" + rest;
    assert s == head + ("\n" + rest);
    IndexOfAbsent(head, '\n');
    IndexOfAppend(head, "\n" + rest, '\n');
    assert IndexOf("\n" + rest, '\n') == 0;
    var k := IndexOf(s, '\n');
    assert k == |head| < |s|;
    assert s[..k] == head;
    assert s[k + 1..] == rest;
  }

  lemma {:induction false} IndexOfAbsent(s: string, c: char)
    requires c !in s
    ensures IndexOf(s, c) == |s|
    decreases |s|
  {
    if s != [] {
      IndexOfAbsent(s[1..], c);
    }
  }

  lemma {:induction false} IndexOfAppend(s: string, t: string, c: char)
    requires c !in s
    ensures IndexOf(s + t, c) == |s| + IndexOf(t, c)
    decreases |s|
  {
    if s != [] {
      assert s[0] in s;
      assert (s + t)[0] == s[0] != c;
      assert (s + t)[1..] == s[1..] + t;
      IndexOfAppend(s[1..], t, c);
    } else {
      assert s + t == t;
    }
  }
}

=== FILE: wrappers.dfy ===
/** Optional values: a regex that did not match, a unit argument the caller left out. */
module Wrappers {
  datatype Option<+T> = None | Some(value: T) {
    function GetOr(default: T): T {
      match this
      case Some(v) => v
      case None => default
    }
  }
}
